=== FILE: README.md ===
# Archipelagoo core in Dafny

This project models the core of the Archipelagoo city-builder prototype (C# on Unity) and proves properties of the model. The core has five parts:

- **Stat ledger.** `CityStat` is one named value. It has an unconditional add, an add that floors losses at zero, and an overwrite. `CityStatsManager` files the stats by name. Its lookups read 0 for an unknown name, and its mutations ignore an unknown name.
- **Placement grid.** `GridManager` materialises one cell marker for every grid cell whose four corners lie on land. It snaps a cursor hit to the centre of a building footprint. It finds the cell under a point by flooring the point and re-centring it to a dictionary key.
- **Placement session.** `BuildingPlacementManager` has these steps:
  - Starting a placement checks the budget and the resources.
  - On every frame, the preview follows the snapped cursor and is tinted by whether its footprint is valid.
  - E and Q rotate the preview.
  - A left click on a valid footprint debits the ledger and places the building.
  - A right click or Escape cancels.
- **Terrain mesher.** `WorldGenerator` cuts the world into square chunks. Each chunk is meshed as one flat quad per voxel cell: land is raised by one voxel and green, water is at 0 and blue. The quads go into flat vertex, uv, colour and triangle buffers.
- **Building parameters.** `BuildingData` holds a building's footprint, its two costs and its height offset.

One Dafny module covers each source file:

| module | file | covers |
|---|---|---|
| `CityStats` | `city_stat.dfy` | `CityStat` |
| `StatsManager` | `city_stats_manager.dfy` | `CityStatsManager` |
| `Buildings` | `building_data.dfy` | `BuildingData` |
| `Grid` | `grid_manager.dfy` | `GridManager` |
| `Placement` | `building_placement_manager.dfy` | `BuildingPlacementManager` |
| `World` | `world_generator.dfy` | `WorldGenerator` |

The other modules are shared or illustrative:

- `Basics`: `Option`, vectors, and the floor and ceiling arithmetic.
- `Noise`: the land test that the grid and the mesher share.
- `Scenario`: one worked placement with the inspector defaults.

How the model stands in for the engine:

- Numbers are exact reals and unbounded integers.
- Perlin noise is a parameter: any total function of two reals.
- Everything the engine supplies arrives as an input to a pure function: the mouse ray's hit on the ground plane, key presses, and the random seed draw.
- The placement session is a value: `Idle(last building)` or `Placing(building, preview)`. One frame is `Placement.Tick`.
- Side effects the player sees are returned as events: a placed building and the two pop-up notices.

Two facts about the code shape the model:

- `CreateChunk` emits one triangle list for land and water together, and no side walls at land/water edges.
- The session has only a placing flag and a preview object, so a committed session and a cancelled one are both `Idle`.

## Model

| member | source | states |
|---|---|---|
| CityStats.Enable | Assets/Code/Interactions/StatsManager/CityStat.cs:13-16 | re-enabling restarts the running value at the base value and keeps the name and base |
| CityStats.Modify | Assets/Code/Interactions/StatsManager/CityStat.cs:18-21 | the running value moves by exactly the amount with no floor, so a loss always lowers it |
| CityStats.SafeModify | Assets/Code/Interactions/StatsManager/CityStat.cs:23-29 | a loss larger than the value empties it to 0; a smaller loss is subtracted exactly; after any loss the value is non-negative; a gain acts exactly like `Modify` |
| CityStats.SetValue | Assets/Code/Interactions/StatsManager/CityStat.cs:31-34 | the running value becomes the given value; name and base are kept |
| CityStats.SafeLossIsFlooredModify | Assets/Code/Interactions/StatsManager/CityStat.cs:18-29 | for a loss, the clamped add equals the unclamped add floored at 0, whatever the starting sign |
| CityStats.SafeModifyAgreesUnlessClamped | Assets/Code/Interactions/StatsManager/CityStat.cs:18-29 | the clamped add is never below the unclamped add, and the two are equal exactly when the amount is a gain or the unclamped result stays non-negative |
| CityStats.ModifyComposes | Assets/Code/Interactions/StatsManager/CityStat.cs:18-21 | two adds compose into one add of the sum, and adding the negation restores the stat |
| CityStats.SetValueLastWins | Assets/Code/Interactions/StatsManager/CityStat.cs:31-34 | overwriting is idempotent and the last overwrite wins |
| CityStats.EnableForgetsHistory | Assets/Code/Interactions/StatsManager/CityStat.cs:13-34 | after any add, clamped add or overwrite, re-enabling gives the same stat as re-enabling the original |
| StatsManager.InitStats | Assets/Code/Interactions/StatsManager/CityStatsManager.cs:31-38 | the ledger's names are exactly the names in the list; each name holds the last stat of that name in the list; every stat is filed under its own name |
| StatsManager.GetStatAfterInit | Assets/Code/Interactions/StatsManager/CityStatsManager.cs:76-79 | `GetStat` on a freshly built ledger reads the running value of the last listed stat with that name, and 0 for a name no listed stat carries |
| StatsManager.ModifyStat | Assets/Code/Interactions/StatsManager/CityStatsManager.cs:40-50 | a known name's value moves by the amount; an unknown name leaves the ledger unchanged; every other entry and the key set are unchanged; the ledger stays filed by name |
| StatsManager.SafeModifyStat | Assets/Code/Interactions/StatsManager/CityStatsManager.cs:52-62 | a loss on a known name leaves its value at max(0, value + amount); a gain acts exactly like `ModifyStat`; an unknown name leaves the ledger unchanged; every other entry is unchanged |
| StatsManager.SetStat | Assets/Code/Interactions/StatsManager/CityStatsManager.cs:64-74 | a known name reads back the given value; an unknown name leaves the ledger unchanged; every other entry is unchanged |
| StatsManager.MutationsAreLocal | Assets/Code/Interactions/StatsManager/CityStatsManager.cs:40-79 | a mutation on one name never changes what `GetStat` reads for any other name |
| StatsManager.SafeDebitNeverNegative | Assets/Code/Interactions/StatsManager/CityStatsManager.cs:52-62 | after a clamped debit, a known name reads non-negative and an unknown name reads 0 |
| Noise.StartSeed | Assets/Code/GridSystem/GridManager.cs:53-54 | the seed in use is never 0: the configured seed when it is non-zero, otherwise the random draw from [1, 100000) |
| Grid.CellCount | Assets/Code/GridSystem/GridManager.cs:60-63 | `n` cells of the cell size fit in the world's extent and `n + 1` cells do not |
| Grid.AreaLandIsFourCorners | Assets/Code/GridSystem/GridManager.cs:96-118 | the area test holds exactly when each of the four corners is land |
| Grid.BuildGrid | Assets/Code/GridSystem/GridManager.cs:56-90 | the materialised cells are exactly the candidate cells whose four corner points are land: none is missed and none is extra |
| Grid.BuildableIffCornersLand | Assets/Code/GridSystem/GridManager.cs:96-118 | a cell is kept exactly when it is a candidate and the voxels under its own four grid corners are land, so one water corner excludes it |
| Grid.KeyCorners | Assets/Code/GridSystem/GridManager.cs:98-104 | the four points inspected around a cell's centre key are exactly that cell's four grid corners |
| Grid.CandidateInsideWorld | Assets/Code/GridSystem/GridManager.cs:60-68 | every visited cell, and so every kept cell, lies inside the world's ground extent |
| Grid.CellContainingIsUnique | Assets/Code/GridSystem/GridManager.cs:174-175 | flooring a point finds a cell that holds it, and no other cell holds it |
| Grid.GetSnappedPosition | Assets/Code/GridSystem/GridManager.cs:156-166 | the snapped point is at marker height, and moving back half the footprint lands on a grid line within one cell below the hit, on both axes |
| Grid.GetCellAtPosition | Assets/Code/GridSystem/GridManager.cs:172-180 | the lookup finds a cell exactly when some materialised cell holds the point, and the cell it finds holds the point |
| Grid.KeyAtIsCanonical | Assets/Code/GridSystem/GridManager.cs:172-180 | every point of a half-open cell canonicalises to that cell's centre key, and canonicalising a key returns it unchanged |
| Grid.CellOfKey | Assets/Code/GridSystem/GridManager.cs:71-82 | the centre key under which a cell is filed lies in that cell |
| Grid.CellKeyInjective | Assets/Code/GridSystem/GridManager.cs:71-82 | different cells are filed under different keys |
| Grid.KeyLookupAgrees | Assets/Code/GridSystem/GridManager.cs:172-180 | looking up the canonical key among the filed centre vectors succeeds exactly when the integer-cell lookup succeeds |
| Grid.SnapUnitIsCellKey | Assets/Code/GridSystem/GridManager.cs:156-180 | a one-cell footprint snaps to the centre key of the cell under the cursor |
| Placement.StartPlacingBuilding | Assets/Code/Buildings/BuildingPlacementManager.cs:46-68 | the ledger is untouched and the building is recorded in both outcomes; a start from idle places exactly when budget and resources both cover the costs; a refused start emits the insufficient-funds notice and keeps the placing state and preview; an approved start spawns a fresh valid preview |
| Placement.CancelPlacement | Assets/Code/Buildings/BuildingPlacementManager.cs:183-189 | afterwards no placement is in progress, and the recorded building is kept |
| Placement.CancelIdempotent | Assets/Code/Buildings/BuildingPlacementManager.cs:183-189 | cancelling twice is the same as cancelling once |
| Placement.CanPlaceBuilding | Assets/Code/Buildings/BuildingPlacementManager.cs:142-165 | the loop answers true exactly when every footprint cell centre lies in a materialised cell; on false, it names a footprint cell that was not found |
| Placement.SnappedFootprintIsBlock | Assets/Code/Buildings/BuildingPlacementManager.cs:142-165 | for a snapped preview, the footprint check tests exactly the `w x h` block of integer cells that starts at the cell under the cursor, whatever the height offset |
| Placement.SnappedCentreIsKey | Assets/Code/Buildings/BuildingPlacementManager.cs:147-155 | footprint cell `(x, z)` of a snapped preview is the centre key of block cell `(x, z)` |
| Placement.AxisCentreIsKey | Assets/Code/Buildings/BuildingPlacementManager.cs:147-153 | on one axis, moving back from the block centre by half of `n - 1` cells and forward by `k` cells reaches the centre of cell `b + k` |
| Placement.RotateYaw | Assets/Code/Buildings/BuildingPlacementManager.cs:105-114 | the yaw stays in [0, 360) and differs from old yaw plus turn by a whole number of full turns |
| Placement.RotateYawSmall | Assets/Code/Buildings/BuildingPlacementManager.cs:105-114 | a turn of less than a full circle from a normalised yaw wraps at most once in either direction |
| Placement.QuarterTurnsRestore | Assets/Code/Buildings/BuildingPlacementManager.cs:105-114 | four E turns restore the yaw, and an E turn undoes a Q turn and vice versa |
| Placement.Rotate | Assets/Code/Buildings/BuildingPlacementManager.cs:103-114 | E alone turns the yaw by +90 degrees and Q alone by -90, each wrapped into [0, 360); rotation never moves or retints the preview; with neither key the preview is unchanged, and with both keys in one frame a normalised yaw is unchanged |
| Placement.UpdateGhostPosition | Assets/Code/Buildings/BuildingPlacementManager.cs:74-95 | with no ground hit the preview stays put; with a hit its x and z are the snapped footprint centre and its height is marker height plus the height offset; it is tinted valid exactly when the block under the cursor is fully materialised; the yaw is kept |
| Placement.Debit | Assets/Code/Buildings/BuildingPlacementManager.cs:170-173 | the budget and the resources each drop by their cost, floored at 0 for a positive cost, and keep their name and base value; an absent stat reads 0; every other stat is untouched; a ledger filed by name stays filed by name |
| Placement.Confirm | Assets/Code/Buildings/BuildingPlacementManager.cs:116-128 | a valid footprint debits, emits the placed building at the preview's pose and ends placing; an invalid one changes nothing and emits the cannot-build notice |
| Placement.HandleInput | Assets/Code/Buildings/BuildingPlacementManager.cs:103-136 | a left click has exactly the ledger effect and the events of confirming the rotated preview, and without a cancel the whole outcome is that confirmation; right click or Escape always ends placing; without a left click the ledger is untouched and nothing is emitted; with no click at all only the rotation changes |
| Placement.Tick | Assets/Code/Buildings/BuildingPlacementManager.cs:33-40 | an idle frame does nothing; while placing, the preview follows the snapped cursor lifted by the height offset, keeps the rotated yaw and is tinted valid exactly when the block under the cursor is materialised; with no ground hit only the rotation changes; a cancel ends placing; a frame without a left click keeps the ledger and emits nothing, and without a click or cancel placing continues; a frame never changes the recorded building; the ledger changes only on a left click while placing |
| Placement.ClickAtCursor | Assets/Code/Buildings/BuildingPlacementManager.cs:74-136 | a click with the cursor on the ground debits exactly when the block under the cursor is materialised, and placing continues exactly when it is not and the frame does not also cancel |
| Placement.RotationIrrelevant | Assets/Code/Buildings/BuildingPlacementManager.cs:103-136 | the rotation keys never change a frame's effect on the ledger, on the placing state or on the number of events |
| Placement.AffordableDebitIsExact | Assets/Code/Buildings/BuildingPlacementManager.cs:170-173 | when the ledger covers both non-negative costs, the clamp never bites and exactly the costs are debited |
| Scenario.DefaultBuildingAffordedOnce | Assets/Code/Buildings/BuildingData.cs:7-11 | with 100 money and 50 resources, the default 2x2 building is placed once on a 2x2 island, which spends everything; a second start is refused with the insufficient-funds notice |
| World.NumChunks | Assets/Code/WorldGeneration/WorldGenerator.cs:41-42 | the chunk count is the fewest chunks that cover the extent: one chunk fewer would not reach it |
| World.ChunksCoverWorld | Assets/Code/WorldGeneration/WorldGenerator.cs:41-50 | every world cell falls in a generated chunk, at local offset `w mod chunkSize` |
| World.ChunkCellsDisjoint | Assets/Code/WorldGeneration/WorldGenerator.cs:82-83 | different (chunk, local cell) pairs name different world cells, so chunks never overlap |
| World.GenerateColumn | Assets/Code/WorldGeneration/WorldGenerator.cs:46-49 | the inner loop keeps the chunks already made and appends chunks `(cx, 0)` to `(cx, ny - 1)` in that order, each at its own origin with its own mesh |
| World.GenerateWorld | Assets/Code/WorldGeneration/WorldGenerator.cs:39-51 | it creates `nx * ny` chunks, or none when either count is not positive; chunk `(cx, cy)` sits at position `cx * ny + cy`; every chunk has its own origin and mesh |
| World.EmitCellShape | Assets/Code/WorldGeneration/WorldGenerator.cs:91-116 | one cell adds four vertices, uvs and colours and six triangle indices, and keeps every triangle index pointing at a vertex |
| World.EmittedShape | Assets/Code/WorldGeneration/WorldGenerator.cs:75-118 | after `k` cells the buffers hold `4k` vertices, uvs and colours and `6k` indices, all naming emitted vertices |
| World.EmittedGrows | Assets/Code/WorldGeneration/WorldGenerator.cs:70-118 | the buffers only ever grow by appending: an earlier state is a prefix of any later one |
| World.EmitStep | Assets/Code/WorldGeneration/WorldGenerator.cs:79-117 | emitting a cell appends that cell's quad, numbered from the current vertex count |
| World.AppendedQuad | Assets/Code/WorldGeneration/WorldGenerator.cs:92-116 | the game's entry-by-entry appends for one cell are exactly the emission of that cell |
| World.EmitColumn | Assets/Code/WorldGeneration/WorldGenerator.cs:79-117 | the inner loop takes the buffers from "columns before `x`" to "columns up to `x`", with the running vertex index equal to the vertex count |
| World.CreateChunk | Assets/Code/WorldGeneration/WorldGenerator.cs:58-130 | the chunk sits at its world origin; its mesh is the cell-by-cell emission; it has `4 n^2` vertices, uvs and colours and `6 n^2` indices, every index naming a vertex |
| World.ChunkMeshShape | Assets/Code/WorldGeneration/WorldGenerator.cs:120-123 | a whole chunk's buffers have `4 n^2` and `6 n^2` entries and every triangle index names a vertex |
| World.CellInChunk | Assets/Code/WorldGeneration/WorldGenerator.cs:77-117 | the entries of cell `(x, y)` start at vertex `4(x n + y)` and index `6(x n + y)` and are that cell's quad |
| World.QuadLayout | Assets/Code/WorldGeneration/WorldGenerator.cs:92-115 | the four vertices of cell `(x, y)` span `[x v, (x+1) v] x [y v, (y+1) v]` at height `v` for land or 0 for water; its colours are all green for land or all blue for water; its uvs are (0,0), (1,0), (1,1), (0,1); its two triangles `(0,2,1)` and `(0,3,2)` use only its own vertices |
| World.LocalPlusOriginIsWorld | Assets/Code/WorldGeneration/WorldGenerator.cs:64-83 | chunk origin plus local cell position is the world position of world cell `chunk * chunkSize + local` |
| World.GridAgreesWithTerrain | Assets/Code/WorldGeneration/WorldGenerator.cs:82-86 | given one shared terrain, the grid's land test of a ground point holds exactly when the mesher paints the quad of that voxel green |
| World.SeparateSeedDrawsDisagree | Assets/Code/WorldGeneration/WorldGenerator.cs:30-31 | when each component resolves seed 0 with its own draw, the grid can read a voxel as water that the mesher paints as land |

## Findings

| source | as written | input that shows it | evidently intended | confidence | as-written member | corrected member |
|---|---|---|---|---|---|---|
| Assets/Code/GridSystem/GridManager.cs:53-54 | `GridManager.Start` replaces seed 0 with its own `Random.Range(1, 100000)` draw. `WorldGenerator.Start` (`WorldGenerator.cs:30-31`) does the same with a separate draw. Both seeds default to 0. | Both seeds are left at 0. The draws are 1 and 2. Noise is `(a, b) -> a / 4`, whose two sampled values, 0.25 and 0.5, lie in [0, 1). The noise scale is 1 and the threshold is 0.4, inside the inspector's [0, 1] range. Voxel (0, 0) samples 0.5 for the mesher, so it is painted green. It samples 0.25 for the grid, so the grid reads it as water. | One seed is resolved once and used by both components, so the grid and the terrain agree, as the comment beside the grid's draw says. | high; not executed | World.SeparateSeedDrawsDisagree | World.GridAgreesWithTerrain |

The model's grid and mesher take one shared `Terrain`, which is the corrected behaviour. `Noise.StartSeed` models each component's seed resolution as written.

## Left out

- Rendering is left out because it is presentation, not logic: materials, the RGBA ghost colours, transparency set-up, normals and handing buffers to `Mesh`. The tint is `ValidTint` or `InvalidTint`, and a vertex colour is `Green` or `Blue`.
- `ShowPopup` is not timed, because time is engine state. A notice is an event, and its 4-second duration on screen is not modelled. Log messages are dropped.
- Singletons (`Instance`, `Awake`, `DontDestroyOnLoad`) are left out: they only wire components together.
- Engine input is left out. `Placement.Tick` receives the ground hit and the key and button presses as an `Input`.
- `GridManager.Update`, `UpdateCursorWorldPosition`, `visibleRadius` and the commented-out visibility fade are left out. They only track the cursor for display.
- Grid.BuildGrid: assumes every instantiated marker carries a `GridCell` component. When it does not, the source only logs and files no cell, and the model has no such branch, because prefab contents are engine assets outside the model.
- `GridCell`, the camera controller, `TimeManager`, menus and audio are outside the modelled core.
- 32-bit floats are replaced by exact reals. With floats, the key computed in `Start` and the key recomputed by `GetCellAtPosition` could in principle differ by rounding. `Grid.KeyLookupAgrees` shows that they agree in exact arithmetic.
- A cell size, chunk size or noise scale of zero is excluded by the types `PosReal`, `PosInt` and `NonZeroReal`. In the source each one is a float division by zero.
- A voxel size of zero is excluded by `PosReal`. The source only multiplies by it in the mesher, so every quad collapses onto the chunk origin. The grid's extent becomes 0, so no grid cell is built.
- A negative noise scale is allowed and modelled, because `NonZeroReal` only excludes zero.
- A negative cell size, voxel size or chunk size is excluded by `PosReal` and `PosInt`. In the source:
  - a negative chunk size makes both chunk counts non-positive, so no chunk is generated;
  - a negative cell size with a positive voxel size makes both cell counts non-positive, so no grid cell is made;
  - a negative voxel size meshes a mirror image of the world, and gives no grid cells when the cell size is positive.
- 32-bit integer wrap-around is not modelled: in `worldX + seed`, in `chunkX * chunkSize`, and in negating an `int` cost. Integers are unbounded.
- Unity's 16-bit mesh index limit (65535 vertices, reached at chunk size 128) is not modelled.
- The prefab's own spawn transform is unknown. `Placement.SpawnedPreview` puts a fresh preview at the origin, with yaw 0 and the valid tint.
- A successful start while already placing replaces the preview. The old ghost object stays in the scene, which the model does not represent.
- `Destroy` runs at the end of the frame, so a preview destroyed by a click still exists for the rest of that frame. The model ends placing at once, and no later step in the same frame reads the preview.
- Rotation is a yaw in whole degrees modulo 360, not a quaternion.
- The random seed draw is a parameter of `Noise.StartSeed`.
- The grid's copies of the world parameters are assumed to equal the generator's. The source keeps them as separate inspector fields, with only a comment saying they must match.
- The one-frame wait in `GridManager.Start` is a scheduling detail and is not modelled.
- `StatsManager.GetStat`: has no contract of its own. What it reads is stated by `StatsManager.GetStatAfterInit` and by the contracts of the three mutations.
- `CreateChunk`'s inner loop is written as the method `World.EmitColumn`, and `GenerateWorld`'s inner loop as `World.GenerateColumn`. The statements are the same, but each inner loop is a separate method.

=== FILE: basics.dfy ===
/** Value types shared by every part of the city-builder model: optional
    results, Unity's vector structs over exact reals, and the floor
    arithmetic that grid snapping and chunk counting are built on. */
module Basics {

  /** A lookup that may find nothing (a `null` GridCell in the game). */
  datatype Option<+T> = None | Some(value: T)

  /** Unity's Vector2, over exact reals. */
  datatype Vec2 = Vec2(x: real, y: real)

  /** Unity's Vector3, over exact reals; y is the vertical axis. */
  datatype Vec3 = Vec3(x: real, y: real, z: real)

  /** Unity's Vector2Int (a building footprint in cells). */
  datatype Vec2Int = Vec2Int(x: int, y: int)

  /** Lengths the game divides by: cell size and voxel size. */
  type PosReal = r: real | r > 0.0 witness 1.0

  /** The noise scale, which the game divides by. */
  type NonZeroReal = r: real | r != 0.0 witness 1.0

  /** The chunk side length, in cells. */
  type PosInt = n: int | n > 0 witness 1

  /** `Mathf.Floor(a / b)` (also `Mathf.FloorToInt`): the index of the
      half-open interval of width `b` that holds `a`. */
  function FloorDiv(a: real, b: PosReal): int
  {
    (a / b).Floor
  }

  /** `Mathf.CeilToInt(r)`. */
  function CeilToInt(r: real): int
  {
    -((-r).Floor)
  }

  lemma MulStrictMono(x: real, y: real, b: PosReal)
    requires x < y
    ensures x * b < y * b
  {
    assert y * b - x * b == (y - x) * b;
  }

  lemma MulMono(x: real, y: real, b: PosReal)
    requires x <= y
    ensures x * b <= y * b
  {
    assert y * b - x * b == (y - x) * b;
  }

  /** Multiplying by a positive factor can be cancelled on both sides of
      `<=` ... */
  lemma MulCancelLe(x: real, y: real, b: PosReal)
    requires x * b <= y * b
    ensures x <= y
  {
    if y < x {
      MulStrictMono(y, x, b);
    }
  }

  /** ... and of `<`. */
  lemma MulCancelLt(x: real, y: real, b: PosReal)
    requires x * b < y * b
    ensures x < y
  {
    if y <= x {
      MulMono(y, x, b);
    }
  }

  lemma SumTimes(a: int, b: int, c: real)
    ensures (a + b) as real * c == a as real * c + b as real * c
  {
  }

  /** `FloorDiv(a, b)` names the interval `[k*b, (k+1)*b)` containing `a`. */
  lemma FloorDivBounds(a: real, b: PosReal)
    ensures FloorDiv(a, b) as real * b <= a < (FloorDiv(a, b) + 1) as real * b
  {
    var q := a / b;
    var k := q.Floor;
    assert q * b == a;
    assert q < (k + 1) as real;
    MulMono(k as real, q, b);
    MulStrictMono(q, (k + 1) as real, b);
    assert a < (k + 1) as real * b;
    assert k == FloorDiv(a, b);
  }

  /** ... and it is the only interval that does. */
  lemma FloorDivUnique(a: real, b: PosReal, k: int)
    requires k as real * b <= a < (k + 1) as real * b
    ensures FloorDiv(a, b) == k
  {
    var q := a / b;
    var k1 := (k + 1) as real;
    assert q * b == a;
    MulCancelLe(k as real, q, b);
    MulCancelLt(q, k1, b);
    assert k as real <= q < k1;
  }

  /** `CeilToInt(a / n)` is the least number of `n`-wide intervals that
      cover `[0, a)`: it is at most 0 when `a` is. */
  lemma CeilDivBounds(a: int, n: PosInt)
    ensures var k := CeilToInt(a as real / n as real);
      && (a > 0 ==> (k - 1) * n < a <= k * n)
      && (a <= 0 ==> k <= 0)
  {
    var r := a as real / n as real;
    var k := CeilToInt(r);
    var f := (-r).Floor;
    assert k == -f;
    assert (k - 1) as real < r <= k as real;
    var nr := n as real;
    assert r * nr == a as real;
    MulStrictMono((k - 1) as real, r, nr);
    MulMono(r, k as real, nr);
    assert ((k - 1) * n) as real == (k - 1) as real * nr;
    assert (k * n) as real == k as real * nr;
  }

  lemma MulIntMono(a: int, b: int, n: nat)
    requires a <= b
    ensures a * n <= b * n
  {
    assert b * n - a * n == (b - a) * n;
  }

  /** Euclidean division by a positive `n` recovers the row and column of
      the row-major slot `x*n + y`. */
  lemma DivModSlot(q: int, n: int, x: int, y: int)
    requires n > 0 && 0 <= y < n && q == x * n + y
    ensures q / n == x && q % n == y
  {
    var d := q / n;
    var m := q % n;
    assert q == d * n + m && 0 <= m < n;
    if d < x {
      MulIntMono(d + 1, x, n);
    } else if d > x {
      MulIntMono(x + 1, d, n);
    }
  }
}

=== FILE: building_data.dfy ===
/** The building parameter record (`BuildingData`) that a placement
    session consumes. The prefab reference is rendering and is left out. */
module Buildings {
  import opened Basics

  /** Footprint in cells (`gridSize.x` along world X, `gridSize.y` along
      world Z), money cost, resource cost, and the height added to the
      snapped position of the preview and of the placed building. */
  datatype BuildingData = BuildingData(
    gridSize: Vec2Int,
    cost: int,
    resourceCost: int,
    heightOffset: real)

  /** The inspector defaults: a 2x2 footprint costing 100 money and 50
      resources, lifted 0.05 units. */
  const DefaultBuilding: BuildingData := BuildingData(Vec2Int(2, 2), 100, 50, 0.05)
}

=== FILE: building_placement_manager.dfy ===
/** The placement session (`BuildingPlacementManager`): a funds check on
    start, a preview (the "ghost") that follows the snapped cursor and is
    tinted by footprint validity every tick, rotation by quarter turns,
    confirm (debit and place) and cancel. The ledger and the grid are
    passed in explicitly; the preview's rendering is reduced to its tint,
    and the timed pop-up to an emitted notice. */
module Placement {
  import opened Basics
  import opened CityStats
  import opened StatsManager
  import opened Grid
  import opened Buildings

  /** The ledger names the session reads and debits. */
  const BudgetStat: string := "Budget"
  const ResourcesStat: string := "Resources"

  /** The preview's tint: translucent green when the footprint is valid,
      translucent red when it is not. */
  datatype Tint = ValidTint | InvalidTint

  /** The preview object: its position, its yaw in degrees (in [0, 360)),
      and its tint. */
  datatype Preview = Preview(position: Vec3, yaw: int, tint: Tint)

  /** `isPlacing` is false (`Idle`) or true (`Placing`, with a live preview);
      both keep `currentBuildingData`, which is only ever overwritten. */
  datatype Session =
    | Idle(last: Option<BuildingData>)
    | Placing(data: BuildingData, preview: Preview)

  datatype Notice = InsufficientFunds | CannotBuildHere

  /** What a step shows the player: a notice, or a building instantiated
      at a position and yaw. */
  datatype Event = Notify(notice: Notice) | Built(position: Vec3, yaw: int)

  /** One tick's input: where the cursor ray meets the ground plane (if it
      does) and which keys and buttons went down this tick. */
  datatype Input = Input(
    hit: Option<Vec3>,
    keyE: bool,
    keyQ: bool,
    leftClick: bool,
    rightClick: bool,
    escape: bool)

  datatype Outcome = Outcome(session: Session, ledger: Ledger, events: seq<Event>)

  /** Nothing placed, no building chosen yet. */
  const InitialSession: Session := Idle(None)

  /** A freshly instantiated preview: at the prefab's own (origin) pose, tinted
      valid by `ApplyGhostEffect`. */
  const SpawnedPreview: Preview := Preview(Vec3(0.0, 0.0, 0.0), 0, ValidTint)

  function CurrentData(s: Session): Option<BuildingData>
  {
    match s
    case Idle(last) => last
    case Placing(data, _) => Some(data)
  }

  /** The funds check: both stats must cover their cost; equality passes. */
  predicate CanAfford(l: Ledger, b: BuildingData)
  {
    GetStat(l, BudgetStat) >= b.cost as real && GetStat(l, ResourcesStat) >= b.resourceCost as real
  }

  /** `StartPlacingBuilding`. The building is recorded before the funds
      check, so a refused start still overwrites the current building. */
  function StartPlacingBuilding(s: Session, l: Ledger, b: BuildingData): (r: Outcome)
    ensures r.ledger == l
    ensures CurrentData(r.session) == Some(b)
    ensures s.Idle? ==>
      (r.session.Placing? <==>
        GetStat(l, BudgetStat) >= b.cost as real && GetStat(l, ResourcesStat) >= b.resourceCost as real)
    ensures !CanAfford(l, b) ==>
      && r.events == [Notify(InsufficientFunds)]
      && r.session.Placing? == s.Placing?
      && (s.Placing? ==> r.session.preview == s.preview)
    ensures CanAfford(l, b) ==> r.events == [] && r.session == Placing(b, SpawnedPreview)
  {
    if !CanAfford(l, b) then
      var kept := match s
        case Idle(_) => Idle(Some(b))
        case Placing(_, preview) => Placing(b, preview);
      Outcome(kept, l, [Notify(InsufficientFunds)])
    else
      Outcome(Placing(b, SpawnedPreview), l, [])
  }

  /** `CancelPlacement`: leaves placing mode (the preview is destroyed). */
  function CancelPlacement(s: Session): (r: Session)
    ensures !r.Placing?
    ensures CurrentData(r) == CurrentData(s)
  {
    Idle(CurrentData(s))
  }

  /** The centre of footprint cell `(x, z)` of a block whose centre is
      `center`: the block origin is `center` moved back by half of `w-1`
      and `h-1` cells, and the height is reset to marker height. */
  function FootprintCellCentre(c: PosReal, center: Vec3, size: Vec2Int, x: int, z: int): Vec3
  {
    var originX := center.x - ((size.x - 1) as real * c) / 2.0;
    var originZ := center.z - ((size.y - 1) as real * c) / 2.0;
    Vec3(originX + x as real * c, MarkerHeight, originZ + z as real * c)
  }

  predicate CellFound(g: Grid, center: Vec3, size: Vec2Int, x: int, z: int)
  {
    GetCellAtPosition(g, FootprintCellCentre(g.cellSize, center, size, x, z)).Some?
  }

  /** Every one of the `w x h` footprint centres finds a cell. */
  predicate FootprintFound(g: Grid, center: Vec3, size: Vec2Int)
  {
    forall x, z :: 0 <= x < size.x && 0 <= z < size.y ==> CellFound(g, center, size, x, z)
  }

  /** `CanPlaceBuilding`: X outer, Z inner, giving up at the first footprint
      centre that finds no cell. A footprint with no cells passes. */
  method CanPlaceBuilding(g: Grid, center: Vec3, size: Vec2Int) returns (ok: bool)
    ensures ok <==> FootprintFound(g, center, size)
    ensures !ok ==> exists x, z :: 0 <= x < size.x && 0 <= z < size.y && !CellFound(g, center, size, x, z)
  {
    var x := 0;
    while x < size.x
      invariant 0 <= x && (x <= size.x || x == 0)
      invariant forall i, j :: 0 <= i < x && 0 <= j < size.y ==> CellFound(g, center, size, i, j)
    {
      var z := 0;
      while z < size.y
        invariant 0 <= z && (z <= size.y || z == 0)
        invariant forall i, j :: 0 <= i < x && 0 <= j < size.y ==> CellFound(g, center, size, i, j)
        invariant forall j :: 0 <= j < z ==> CellFound(g, center, size, x, j)
      {
        var cellCenter := FootprintCellCentre(g.cellSize, center, size, x, z);
        var cell := GetCellAtPosition(g, cellCenter);
        if cell.None? {
          assert !CellFound(g, center, size, x, z);
          return false;
        }
        z := z + 1;
      }
      x := x + 1;
    }
    return true;
  }

  /** Cell `(x, z)` of the block whose lower corner is cell `base`. */
  function BlockCell(base: Cell, x: int, z: int): Cell
  {
    Cell(base.gx + x, base.gz + z)
  }

  /** Every cell of the `w x h` block starting at `base` was materialised. */
  predicate BlockMaterialised(g: Grid, base: Cell, size: Vec2Int)
  {
    forall x, z :: 0 <= x < size.x && 0 <= z < size.y ==> BlockCell(base, x, z) in g.cells
  }

  /** Snapping then validating checks exactly the integer block that
      starts at the cell under the cursor, with `gridSize.x` along X and
      `gridSize.y` along Z; a lift of the snapped height (the building's
      height offset) changes nothing. */
  lemma SnappedFootprintIsBlock(g: Grid, hit: Vec3, size: Vec2Int, lift: real)
    ensures
      var s := GetSnappedPosition(g.cellSize, hit, size);
      (FootprintFound(g, Vec3(s.x, s.y + lift, s.z), size) <==>
       BlockMaterialised(g, CellContaining(g.cellSize, hit), size))
  {
    var c := g.cellSize;
    var s := GetSnappedPosition(c, hit, size);
    var center := Vec3(s.x, s.y + lift, s.z);
    var base := CellContaining(c, hit);
    forall x, z | 0 <= x < size.x && 0 <= z < size.y
      ensures CellFound(g, center, size, x, z) <==> BlockCell(base, x, z) in g.cells
    {
      SnappedCentreIsKey(c, hit, size, lift, x, z);
      CellOfKey(c, BlockCell(base, x, z));
    }
  }

  /** Footprint centre `(x, z)` of a snapped block is the key of block
      cell `(x, z)`. */
  lemma SnappedCentreIsKey(c: PosReal, hit: Vec3, size: Vec2Int, lift: real, x: int, z: int)
    ensures
      var s := GetSnappedPosition(c, hit, size);
      FootprintCellCentre(c, Vec3(s.x, s.y + lift, s.z), size, x, z)
        == CellKey(c, BlockCell(CellContaining(c, hit), x, z))
  {
    var base := CellContaining(c, hit);
    var s := GetSnappedPosition(c, hit, size);
    assert s.x == base.gx as real * c + (size.x as real * c) / 2.0;
    assert s.z == base.gz as real * c + (size.y as real * c) / 2.0;
    AxisCentreIsKey(c, base.gx, size.x, x);
    AxisCentreIsKey(c, base.gz, size.y, z);
  }

  /** Along one axis: the centre of a block of `n` cells starting at cell
      `b`, moved back by `(n-1)/2` cells and forward by `k`, is the centre
      of cell `b + k`. */
  lemma AxisCentreIsKey(c: PosReal, b: int, n: int, k: int)
    ensures
      var centre := b as real * c + (n as real * c) / 2.0;
      centre - ((n - 1) as real * c) / 2.0 + k as real * c == (b + k) as real * c + c / 2.0
  {
    SumTimes(n, -1, c);
    SumTimes(b, k, c);
  }

  /** Yaw after turning by `degrees` about the vertical axis, kept in
      [0, 360) since orientations 360 degrees apart are the same. */
  function RotateYaw(yaw: int, degrees: int): (r: int)
    ensures 0 <= r < 360
    ensures (r - (yaw + degrees)) % 360 == 0
  {
    (yaw + degrees) % 360
  }

  lemma RotateYawSmall(yaw: int, degrees: int)
    requires 0 <= yaw < 360 && -360 < degrees < 360
    ensures RotateYaw(yaw, degrees) ==
      if yaw + degrees < 0 then yaw + degrees + 360
      else if yaw + degrees < 360 then yaw + degrees
      else yaw + degrees - 360
  {
    var q := yaw + degrees;
    if q < 0 {
      DivModSlot(q, 360, -1, q + 360);
    } else if q < 360 {
      DivModSlot(q, 360, 0, q);
    } else {
      DivModSlot(q, 360, 1, q - 360);
    }
  }

  /** Four presses of E, or E then Q, or Q then E, restore the yaw. */
  lemma QuarterTurnsRestore(yaw: int)
    requires 0 <= yaw < 360
    ensures RotateYaw(RotateYaw(RotateYaw(RotateYaw(yaw, 90), 90), 90), 90) == yaw
    ensures RotateYaw(RotateYaw(yaw, 90), -90) == yaw
    ensures RotateYaw(RotateYaw(yaw, -90), 90) == yaw
  {
    var a := RotateYaw(yaw, 90);
    RotateYawSmall(yaw, 90);
    var b := RotateYaw(a, 90);
    RotateYawSmall(a, 90);
    var d := RotateYaw(b, 90);
    RotateYawSmall(b, 90);
    RotateYawSmall(d, 90);
    RotateYawSmall(a, -90);
    var e := RotateYaw(yaw, -90);
    RotateYawSmall(yaw, -90);
    RotateYawSmall(e, 90);
  }

  /** E turns by +90 degrees and Q by -90, in that order. */
  function Rotate(preview: Preview, input: Input): (r: Preview)
    ensures r.position == preview.position && r.tint == preview.tint
    ensures !input.keyE && !input.keyQ ==> r == preview
    ensures input.keyE && input.keyQ && 0 <= preview.yaw < 360 ==> r == preview
    ensures input.keyE && !input.keyQ ==> r.yaw == RotateYaw(preview.yaw, 90)
    ensures input.keyQ && !input.keyE ==> r.yaw == RotateYaw(preview.yaw, -90)
  {
    var afterE := if input.keyE then preview.(yaw := RotateYaw(preview.yaw, 90)) else preview;
    if input.keyQ then afterE.(yaw := RotateYaw(afterE.yaw, -90)) else afterE
  }

  /** `UpdateGhostPosition`: when the cursor ray meets the ground, the preview
      moves to the snapped footprint centre lifted by the height offset and
      is tinted by whether that footprint is valid. */
  function UpdateGhostPosition(data: BuildingData, preview: Preview, g: Grid, hit: Option<Vec3>): (r: Preview)
    ensures r.yaw == preview.yaw
    ensures hit.None? ==> r == preview
    ensures hit.Some? ==> r.position.y == MarkerHeight + data.heightOffset
    ensures hit.Some? ==>
      var snapped := GetSnappedPosition(g.cellSize, hit.value, data.gridSize);
      r.position.x == snapped.x && r.position.z == snapped.z
    ensures hit.Some? ==>
      (r.tint == ValidTint <==> BlockMaterialised(g, CellContaining(g.cellSize, hit.value), data.gridSize))
    ensures hit.Some? ==>
      (FootprintFound(g, r.position, data.gridSize) <==>
       BlockMaterialised(g, CellContaining(g.cellSize, hit.value), data.gridSize))
  {
    match hit
    case None => preview
    case Some(h) =>
      var snapped := GetSnappedPosition(g.cellSize, h, data.gridSize);
      var pos := Vec3(snapped.x, snapped.y + data.heightOffset, snapped.z);
      SnappedFootprintIsBlock(g, h, data.gridSize, data.heightOffset);
      var tint := if FootprintFound(g, pos, data.gridSize) then ValidTint else InvalidTint;
      preview.(position := pos, tint := tint)
  }

  /** `PlaceBuilding`'s debit: clamped subtraction of the money cost from
      the budget, then of the resource cost from the resources. */
  function Debit(l: Ledger, b: BuildingData): (r: Ledger)
    ensures r.Keys == l.Keys
    ensures forall m :: m in l && m != BudgetStat && m != ResourcesStat ==> r[m] == l[m]
    ensures BudgetStat in l && b.cost > 0 ==>
      GetStat(r, BudgetStat) == Max(0.0, GetStat(l, BudgetStat) - b.cost as real)
    ensures BudgetStat in l && b.cost <= 0 ==>
      GetStat(r, BudgetStat) == GetStat(l, BudgetStat) - b.cost as real
    ensures ResourcesStat in l && b.resourceCost > 0 ==>
      GetStat(r, ResourcesStat) == Max(0.0, GetStat(l, ResourcesStat) - b.resourceCost as real)
    ensures ResourcesStat in l && b.resourceCost <= 0 ==>
      GetStat(r, ResourcesStat) == GetStat(l, ResourcesStat) - b.resourceCost as real
    ensures BudgetStat !in l ==> GetStat(r, BudgetStat) == 0.0
    ensures ResourcesStat !in l ==> GetStat(r, ResourcesStat) == 0.0
    ensures BudgetStat in l ==>
      r[BudgetStat].name == l[BudgetStat].name && r[BudgetStat].baseValue == l[BudgetStat].baseValue
    ensures ResourcesStat in l ==>
      r[ResourcesStat].name == l[ResourcesStat].name && r[ResourcesStat].baseValue == l[ResourcesStat].baseValue
    ensures WellKeyed(l) ==> WellKeyed(r)
  {
    var afterBudget := SafeModifyStat(l, BudgetStat, -(b.cost as real));
    SafeModifyStat(afterBudget, ResourcesStat, -(b.resourceCost as real))
  }

  /** A left click while placing: a valid footprint debits the ledger, emits
      the placed building and ends placing; an invalid one changes nothing
      but emits the "cannot build here" notice. */
  function Confirm(data: BuildingData, preview: Preview, l: Ledger, g: Grid): (r: Outcome)
    ensures FootprintFound(g, preview.position, data.gridSize) ==>
      && r.session == Idle(Some(data))
      && r.ledger == Debit(l, data)
      && r.events == [Built(preview.position, preview.yaw)]
    ensures !FootprintFound(g, preview.position, data.gridSize) ==>
      r == Outcome(Placing(data, preview), l, [Notify(CannotBuildHere)])
  {
    if FootprintFound(g, preview.position, data.gridSize) then
      Outcome(CancelPlacement(Placing(data, preview)), Debit(l, data), [Built(preview.position, preview.yaw)])
    else
      Outcome(Placing(data, preview), l, [Notify(CannotBuildHere)])
  }

  /** `HandleInput`: rotation keys, then confirm, then cancel (right click
      or Escape), all within the same tick. */
  function HandleInput(data: BuildingData, preview: Preview, l: Ledger, g: Grid, input: Input): (r: Outcome)
    ensures input.rightClick || input.escape ==> !r.session.Placing?
    ensures !input.leftClick ==> r.ledger == l && r.events == []
    ensures !input.leftClick && !input.rightClick && !input.escape ==>
      r == Outcome(Placing(data, Rotate(preview, input)), l, [])
    ensures CurrentData(r.session) == Some(data)
    ensures input.leftClick ==>
      var confirmed := Confirm(data, Rotate(preview, input), l, g);
      r.ledger == confirmed.ledger && r.events == confirmed.events
    ensures input.leftClick && !input.rightClick && !input.escape ==>
      r == Confirm(data, Rotate(preview, input), l, g)
  {
    var rotated := Rotate(preview, input);
    var afterClick :=
      if input.leftClick then Confirm(data, rotated, l, g)
      else Outcome(Placing(data, rotated), l, []);
    if input.rightClick || input.escape then
      afterClick.(session := CancelPlacement(afterClick.session))
    else
      afterClick
  }

  /** `Update`: one tick. Nothing happens unless placing with a live preview;
      otherwise the preview follows the cursor and the input is handled. */
  function Tick(s: Session, l: Ledger, g: Grid, input: Input): (r: Outcome)
    ensures s.Idle? ==> r == Outcome(s, l, [])
    ensures CurrentData(r.session) == CurrentData(s)
    ensures r.ledger != l ==> s.Placing? && input.leftClick
    ensures s.Placing? && (input.rightClick || input.escape) ==> !r.session.Placing?
    ensures s.Placing? && !input.leftClick ==> r.ledger == l && r.events == []
    ensures s.Placing? && !input.leftClick && !input.rightClick && !input.escape ==> r.session.Placing?
    ensures s.Placing? && input.hit.None? && !input.leftClick && !input.rightClick && !input.escape ==>
      r.session == Placing(s.data, Rotate(s.preview, input))
    ensures s.Placing? && input.hit.Some? && !input.leftClick && !input.rightClick && !input.escape ==>
      var snapped := GetSnappedPosition(g.cellSize, input.hit.value, s.data.gridSize);
      && r.session.Placing?
      && r.session.preview.position == Vec3(snapped.x, snapped.y + s.data.heightOffset, snapped.z)
      && r.session.preview.yaw == Rotate(s.preview, input).yaw
      && (r.session.preview.tint == ValidTint <==>
          BlockMaterialised(g, CellContaining(g.cellSize, input.hit.value), s.data.gridSize))
  {
    match s
    case Idle(_) => Outcome(s, l, [])
    case Placing(data, preview) =>
      HandleInput(data, UpdateGhostPosition(data, preview, g, input.hit), l, g, input)
  }

  /** A tick that clicks with the cursor on the ground debits the ledger
      exactly when the block of cells under the cursor was materialised,
      and only then stops placing (unless the tick also cancels). */
  lemma ClickAtCursor(data: BuildingData, preview: Preview, l: Ledger, g: Grid, input: Input)
    requires input.hit.Some? && input.leftClick
    ensures
      var valid := BlockMaterialised(g, CellContaining(g.cellSize, input.hit.value), data.gridSize);
      var r := Tick(Placing(data, preview), l, g, input);
      && r.ledger == (if valid then Debit(l, data) else l)
      && (r.session.Placing? <==> !valid && !input.rightClick && !input.escape)
  {
    var moved := UpdateGhostPosition(data, preview, g, input.hit);
    var rotated := Rotate(moved, input);
    assert rotated.position == moved.position;
  }

  /** Rotation keys never change what a tick does to the ledger or to the
      placing state: validity is judged on position alone. */
  lemma RotationIrrelevant(s: Session, l: Ledger, g: Grid, input: Input, e: bool, q: bool)
    ensures
      var r1 := Tick(s, l, g, input);
      var r2 := Tick(s, l, g, input.(keyE := e, keyQ := q));
      r1.ledger == r2.ledger && r1.session.Placing? == r2.session.Placing? && |r1.events| == |r2.events|
  {
  }

  /** Cancelling is idempotent. */
  lemma CancelIdempotent(s: Session)
    ensures CancelPlacement(CancelPlacement(s)) == CancelPlacement(s)
  {
  }

  /** With enough money and resources, a confirmed placement debits exactly
      the two costs: the clamp never bites, provided the ledger has not
      changed since the start was approved. */
  lemma AffordableDebitIsExact(l: Ledger, b: BuildingData)
    requires BudgetStat in l && ResourcesStat in l
    requires b.cost >= 0 && b.resourceCost >= 0
    requires CanAfford(l, b)
    ensures GetStat(Debit(l, b), BudgetStat) == GetStat(l, BudgetStat) - b.cost as real
    ensures GetStat(Debit(l, b), ResourcesStat) == GetStat(l, ResourcesStat) - b.resourceCost as real
  {
  }
}

=== FILE: city_stat.dfy ===
/** A single city stat (`CityStat`): a named value with a base it restarts
    from, an unconditional add, a floor-clamped add, and an overwrite.
    Values are exact reals rather than 32-bit floats. */
module CityStats {

  datatype Stat = Stat(name: string, baseValue: real, currentValue: real)

  function Max(a: real, b: real): real
  {
    if a < b then b else a
  }

  /** `OnEnable`: the running value restarts from the base value. */
  function Enable(s: Stat): (r: Stat)
    ensures r.currentValue == s.baseValue
    ensures r.name == s.name && r.baseValue == s.baseValue
  {
    s.(currentValue := s.baseValue)
  }

  /** `Modify`: adds `amount` with no floor, so the value may go negative. */
  function Modify(s: Stat, amount: real): (r: Stat)
    ensures r.currentValue - s.currentValue == amount
    ensures amount < 0.0 ==> r.currentValue < s.currentValue
    ensures r.name == s.name && r.baseValue == s.baseValue
  {
    s.(currentValue := s.currentValue + amount)
  }

  /** `SafeModify`: a loss larger than the running value empties it to
      exactly 0; any other amount is added as `Modify` would. */
  function SafeModify(s: Stat, amount: real): (r: Stat)
    ensures amount < 0.0 && -amount > s.currentValue ==> r.currentValue == 0.0
    ensures amount < 0.0 && -amount <= s.currentValue ==> r.currentValue == s.currentValue - (-amount)
    ensures amount < 0.0 ==> r.currentValue >= 0.0
    ensures amount >= 0.0 ==> r == Modify(s, amount)
    ensures r.name == s.name && r.baseValue == s.baseValue
  {
    if amount < 0.0 && -amount > s.currentValue then s.(currentValue := 0.0)
    else s.(currentValue := s.currentValue + amount)
  }

  /** `SetValue`: overwrites the running value. */
  function SetValue(s: Stat, value: real): (r: Stat)
    ensures r.currentValue == value
    ensures r.name == s.name && r.baseValue == s.baseValue
  {
    s.(currentValue := value)
  }

  /** For a loss, the clamped add is the unclamped result floored at 0,
      whatever the sign of the value it started from. */
  lemma SafeLossIsFlooredModify(s: Stat, amount: real)
    requires amount < 0.0
    ensures SafeModify(s, amount).currentValue == Max(0.0, Modify(s, amount).currentValue)
  {
  }

  /** The clamped add never goes below the unclamped one, and agrees with
      it exactly when the unclamped result stays non-negative or the
      amount is a gain. */
  lemma SafeModifyAgreesUnlessClamped(s: Stat, amount: real)
    ensures SafeModify(s, amount).currentValue >= Modify(s, amount).currentValue
    ensures SafeModify(s, amount) == Modify(s, amount)
        <==> amount >= 0.0 || s.currentValue + amount >= 0.0
  {
  }

  /** Two adds compose into one, and an add followed by its negation
      restores the stat. */
  lemma ModifyComposes(s: Stat, a: real, b: real)
    ensures Modify(Modify(s, a), b) == Modify(s, a + b)
    ensures Modify(Modify(s, a), -a) == s
  {
  }

  /** Overwriting is idempotent and the last overwrite wins. */
  lemma SetValueLastWins(s: Stat, v: real, w: real)
    ensures SetValue(SetValue(s, v), v) == SetValue(s, v)
    ensures SetValue(SetValue(s, v), w) == SetValue(s, w)
  {
  }

  /** Re-enabling forgets every change made since: only the base value
      matters. */
  lemma EnableForgetsHistory(s: Stat, a: real, v: real)
    ensures Enable(Modify(s, a)) == Enable(s)
    ensures Enable(SafeModify(s, a)) == Enable(s)
    ensures Enable(SetValue(s, v)) == Enable(s)
    ensures Enable(Enable(s)) == Enable(s)
  {
  }
}

=== FILE: city_stats_manager.dfy ===
/** The stat ledger (`CityStatsManager`): stats keyed by name, with lookups
    that read 0 for an unknown name and mutations that leave the ledger
    alone (the game only logs a warning) when the name is unknown. */
module StatsManager {
  import opened CityStats

  /** The name-to-stat dictionary. */
  type Ledger = map<string, Stat>

  /** Every stat is filed under its own name. */
  ghost predicate WellKeyed(l: Ledger)
  {
    forall n :: n in l ==> l[n].name == n
  }

  /** No stat after position `i` in the list shares its name. */
  ghost predicate LastOfName(stats: seq<Stat>, i: int)
    requires 0 <= i < |stats|
  {
    forall j :: i < j < |stats| ==> stats[j].name != stats[i].name
  }

  /** The names carried by a list of stats. */
  function Names(stats: seq<Stat>): set<string>
  {
    set i | 0 <= i < |stats| :: stats[i].name
  }

  lemma NamesOfSnoc(front: seq<Stat>, last: Stat)
    ensures Names(front + [last]) == Names(front) + {last.name}
  {
    var s := front + [last];
    forall n | n in Names(s) ensures n in Names(front) + {last.name} {
      var i :| 0 <= i < |s| && s[i].name == n;
      if i < |front| { assert front[i] == s[i]; }
    }
    forall n | n in Names(front) ensures n in Names(s) {
      var i :| 0 <= i < |front| && front[i].name == n;
      assert s[i] == front[i];
    }
    assert s[|front|] == last;
  }

  /** `InitStats`: files each stat of the list under its name; when two
      stats share a name, the later one in the list is the one kept. */
  function InitStats(stats: seq<Stat>): (l: Ledger)
    ensures l.Keys == Names(stats)
    ensures forall i :: 0 <= i < |stats| && LastOfName(stats, i) ==> l[stats[i].name] == stats[i]
    ensures WellKeyed(l)
    decreases |stats|
  {
    if |stats| == 0 then map[]
    else
      var front := stats[..|stats| - 1];
      var last := stats[|stats| - 1];
      assert stats == front + [last];
      NamesOfSnoc(front, last);
      assert forall i :: 0 <= i < |front| && LastOfName(stats, i) ==> LastOfName(front, i);
      InitStats(front)[last.name := last]
  }

  /** `GetStat`: the running value of the named stat, or 0 when there is
      no such stat. */
  function GetStat(l: Ledger, name: string): real
  {
    if name in l then l[name].currentValue else 0.0
  }

  /** `ModifyStat`. */
  function ModifyStat(l: Ledger, name: string, amount: real): (r: Ledger)
    ensures r.Keys == l.Keys
    ensures name !in l ==> r == l
    ensures name in l ==> GetStat(r, name) == GetStat(l, name) + amount
    ensures name in l ==> r[name].name == l[name].name && r[name].baseValue == l[name].baseValue
    ensures forall m :: m in l && m != name ==> r[m] == l[m]
    ensures WellKeyed(l) ==> WellKeyed(r)
  {
    if name in l then l[name := Modify(l[name], amount)] else l
  }

  /** `SafeModifyStat`. */
  function SafeModifyStat(l: Ledger, name: string, amount: real): (r: Ledger)
    ensures r.Keys == l.Keys
    ensures name !in l ==> r == l
    ensures name in l && amount < 0.0 ==>
      GetStat(r, name) == Max(0.0, GetStat(l, name) + amount)
    ensures name in l && amount >= 0.0 ==> r == ModifyStat(l, name, amount)
    ensures name in l ==> r[name].name == l[name].name && r[name].baseValue == l[name].baseValue
    ensures forall m :: m in l && m != name ==> r[m] == l[m]
    ensures WellKeyed(l) ==> WellKeyed(r)
  {
    if name in l then l[name := SafeModify(l[name], amount)] else l
  }

  /** `SetStat`. */
  function SetStat(l: Ledger, name: string, value: real): (r: Ledger)
    ensures r.Keys == l.Keys
    ensures name !in l ==> r == l
    ensures name in l ==> GetStat(r, name) == value
    ensures name in l ==> r[name].name == l[name].name && r[name].baseValue == l[name].baseValue
    ensures forall m :: m in l && m != name ==> r[m] == l[m]
    ensures WellKeyed(l) ==> WellKeyed(r)
  {
    if name in l then l[name := SetValue(l[name], value)] else l
  }

  /** Reading through the ledger built from a list gives the running value
      of the last stat of that name in the list, and 0 for a name no stat
      carries. */
  lemma {:induction false} GetStatAfterInit(stats: seq<Stat>, name: string)
    ensures (forall i :: 0 <= i < |stats| ==> stats[i].name != name) ==> GetStat(InitStats(stats), name) == 0.0
    ensures forall i :: 0 <= i < |stats| && stats[i].name == name && LastOfName(stats, i) ==>
      GetStat(InitStats(stats), name) == stats[i].currentValue
  {
  }

  /** A mutation on one name reads back unchanged under every other name. */
  lemma MutationsAreLocal(l: Ledger, name: string, other: string, amount: real)
    requires other != name
    ensures GetStat(ModifyStat(l, name, amount), other) == GetStat(l, other)
    ensures GetStat(SafeModifyStat(l, name, amount), other) == GetStat(l, other)
    ensures GetStat(SetStat(l, name, amount), other) == GetStat(l, other)
  {
  }

  /** A clamped debit of a positive amount never leaves a stat negative,
      whether or not the name is known. */
  lemma SafeDebitNeverNegative(l: Ledger, name: string, x: real)
    requires x > 0.0
    ensures name in l ==> GetStat(SafeModifyStat(l, name, -x), name) >= 0.0
    ensures name !in l ==> GetStat(SafeModifyStat(l, name, -x), name) == 0.0
  {
  }
}

=== FILE: grid_manager.dfy ===
/** The placement grid (`GridManager`): which cells may carry buildings,
    how a cursor point snaps to a footprint centre, and which cell a point
    falls in. The game files each materialised cell in a dictionary keyed
    by the cell's centre vector; here a cell is its integer index, and the
    lemmas below show that the centre-vector key and the index pick out
    the same cell in exact arithmetic. */
module Grid {
  import opened Basics
  import opened Noise

  /** The height of every cell centre and snapped position (0.05 units). */
  const MarkerHeight: real := 0.05

  /** The grid manager's inspector settings: its copy of the generator
      parameters and the cell edge length. */
  datatype GridConfig = GridConfig(terrain: Terrain, cellSize: PosReal)

  /** A grid cell, by index: it spans `[gx*c, (gx+1)*c) x [gz*c, (gz+1)*c)`
      on the ground plane, for cell size `c`. */
  datatype Cell = Cell(gx: int, gz: int)

  /** The materialised cells (the `gridCells` dictionary). */
  datatype Grid = Grid(cellSize: PosReal, cells: set<Cell>)

  /** `numCellsX` / `numCellsZ`: the number of whole cells that fit along
      an axis `extent` voxels long. */
  function CellCount(extent: int, voxelSize: PosReal, cellSize: PosReal): (n: int)
    ensures n as real * cellSize <= extent as real * voxelSize < (n + 1) as real * cellSize
  {
    FloorDivBounds(extent as real * voxelSize, cellSize);
    FloorDiv(extent as real * voxelSize, cellSize)
  }

  function NumCellsX(cfg: GridConfig): int
  {
    CellCount(cfg.terrain.worldWidth, cfg.terrain.voxelSize, cfg.cellSize)
  }

  function NumCellsZ(cfg: GridConfig): int
  {
    CellCount(cfg.terrain.worldHeight, cfg.terrain.voxelSize, cfg.cellSize)
  }

  /** The cells the build loop visits. */
  predicate IsCandidate(cfg: GridConfig, cell: Cell)
  {
    0 <= cell.gx < NumCellsX(cfg) && 0 <= cell.gz < NumCellsZ(cfg)
  }

  /** The centre of a cell, at marker height: the key the game files the
      cell under. */
  function CellKey(c: PosReal, cell: Cell): Vec3
  {
    Vec3(cell.gx as real * c + c / 2.0, MarkerHeight, cell.gz as real * c + c / 2.0)
  }

  /** The four corners `IsAreaLand` inspects around `center`. */
  function Corners(center: Vec3, size: real): seq<Vec3>
  {
    var half := size / 2.0;
    [ Vec3(center.x - half, center.y, center.z - half),
      Vec3(center.x + half, center.y, center.z - half),
      Vec3(center.x + half, center.y, center.z + half),
      Vec3(center.x - half, center.y, center.z + half) ]
  }

  /** A ground point is land when the voxel holding it is land, by the
      same classification the terrain mesher uses. */
  predicate PointIsLand(noise: NoiseFn, t: Terrain, p: Vec3)
  {
    IsLand(noise, t, FloorDiv(p.x, t.voxelSize), FloorDiv(p.z, t.voxelSize))
  }

  /** The ground point at grid line `gx + dx`, `gz + dz`: a corner of
      `cell` when `dx` and `dz` are 0 or 1. */
  function CellCorner(c: PosReal, cell: Cell, dx: int, dz: int): Vec3
  {
    Vec3((cell.gx + dx) as real * c, MarkerHeight, (cell.gz + dz) as real * c)
  }

  /** `IsAreaLand`: all four corners are land. */
  predicate IsAreaLand(noise: NoiseFn, t: Terrain, center: Vec3, size: real)
  {
    var corners := Corners(center, size);
    forall i :: 0 <= i < |corners| ==> PointIsLand(noise, t, corners[i])
  }

  lemma AreaLandIsFourCorners(noise: NoiseFn, t: Terrain, center: Vec3, size: real)
    ensures var cs := Corners(center, size);
      IsAreaLand(noise, t, center, size) <==>
        PointIsLand(noise, t, cs[0]) && PointIsLand(noise, t, cs[1]) &&
        PointIsLand(noise, t, cs[2]) && PointIsLand(noise, t, cs[3])
  {
  }

  /** The cells the build loop materialises. */
  predicate Buildable(noise: NoiseFn, cfg: GridConfig, cell: Cell)
  {
    IsCandidate(cfg, cell) && IsAreaLand(noise, cfg.terrain, CellKey(cfg.cellSize, cell), cfg.cellSize)
  }

  /** The grid-building loop of `Start`: visits every candidate cell, X
      outer and Z inner, and keeps those whose four corners are land. */
  method BuildGrid(noise: NoiseFn, cfg: GridConfig) returns (g: Grid)
    ensures g.cellSize == cfg.cellSize
    ensures forall cell :: cell in g.cells <==> Buildable(noise, cfg, cell)
  {
    var c := cfg.cellSize;
    var numCellsX := NumCellsX(cfg);
    var numCellsZ := NumCellsZ(cfg);
    var cells: set<Cell> := {};
    var gx := 0;
    while gx < numCellsX
      invariant 0 <= gx && (gx <= numCellsX || gx == 0)
      invariant forall cell :: cell in cells <==> Buildable(noise, cfg, cell) && cell.gx < gx
    {
      var gz := 0;
      while gz < numCellsZ
        invariant 0 <= gz && (gz <= numCellsZ || gz == 0)
        invariant forall cell :: cell in cells <==>
          Buildable(noise, cfg, cell) && (cell.gx < gx || (cell.gx == gx && cell.gz < gz))
      {
        var cellCenter := CellKey(c, Cell(gx, gz));
        if IsAreaLand(noise, cfg.terrain, cellCenter, c) {
          cells := cells + {Cell(gx, gz)};
        }
        gz := gz + 1;
      }
      gx := gx + 1;
    }
    g := Grid(c, cells);
  }

  /** A cell is kept exactly when it is a candidate and the voxels under
      its own four corners, `(gx*c, gz*c)` round to `((gx+1)*c, (gz+1)*c)`,
      are all land: one water corner excludes it. */
  lemma BuildableIffCornersLand(noise: NoiseFn, cfg: GridConfig, cell: Cell)
    ensures Buildable(noise, cfg, cell) <==>
      && IsCandidate(cfg, cell)
      && PointIsLand(noise, cfg.terrain, CellCorner(cfg.cellSize, cell, 0, 0))
      && PointIsLand(noise, cfg.terrain, CellCorner(cfg.cellSize, cell, 1, 0))
      && PointIsLand(noise, cfg.terrain, CellCorner(cfg.cellSize, cell, 1, 1))
      && PointIsLand(noise, cfg.terrain, CellCorner(cfg.cellSize, cell, 0, 1))
  {
    AreaLandIsFourCorners(noise, cfg.terrain, CellKey(cfg.cellSize, cell), cfg.cellSize);
    KeyCorners(cfg.cellSize, cell);
  }

  /** The corners inspected around a cell's key are the cell's own four
      grid corners. */
  lemma KeyCorners(c: PosReal, cell: Cell)
    ensures Corners(CellKey(c, cell), c) ==
      [CellCorner(c, cell, 0, 0), CellCorner(c, cell, 1, 0), CellCorner(c, cell, 1, 1), CellCorner(c, cell, 0, 1)]
  {
    HalfCellEitherSide(cell.gx, c);
    HalfCellEitherSide(cell.gz, c);
    var cs := Corners(CellKey(c, cell), c);
    assert cs[0] == CellCorner(c, cell, 0, 0);
    assert cs[1] == CellCorner(c, cell, 1, 0);
    assert cs[2] == CellCorner(c, cell, 1, 1);
    assert cs[3] == CellCorner(c, cell, 0, 1);
  }

  /** From the centre of cell `k`, half a cell back is grid line `k` and
      half a cell forward is grid line `k + 1`. */
  lemma HalfCellEitherSide(k: int, c: PosReal)
    ensures k as real * c + c / 2.0 - c / 2.0 == k as real * c
    ensures k as real * c + c / 2.0 + c / 2.0 == (k + 1) as real * c
  {
    SumTimes(k, 1, c);
  }

  /** Every cell the build loop visits, and so every kept cell, lies
      inside the generated world, whose ground extent is
      `worldWidth*voxelSize` by `worldHeight*voxelSize`. */
  lemma CandidateInsideWorld(cfg: GridConfig, cell: Cell)
    requires IsCandidate(cfg, cell)
    ensures 0.0 <= cell.gx as real * cfg.cellSize
    ensures (cell.gx + 1) as real * cfg.cellSize <= cfg.terrain.worldWidth as real * cfg.terrain.voxelSize
    ensures 0.0 <= cell.gz as real * cfg.cellSize
    ensures (cell.gz + 1) as real * cfg.cellSize <= cfg.terrain.worldHeight as real * cfg.terrain.voxelSize
  {
    var t := cfg.terrain;
    IndexWithinExtent(cell.gx, NumCellsX(cfg), cfg.cellSize, t.worldWidth as real * t.voxelSize);
    IndexWithinExtent(cell.gz, NumCellsZ(cfg), cfg.cellSize, t.worldHeight as real * t.voxelSize);
  }

  /** Cell `k` of `n` cells of size `c` lies inside an extent that holds
      all `n` cells. */
  lemma IndexWithinExtent(k: int, n: int, c: PosReal, extent: real)
    requires 0 <= k < n && n as real * c <= extent
    ensures 0.0 <= k as real * c && (k + 1) as real * c <= extent
  {
    MulMono(0.0, k as real, c);
    MulMono((k + 1) as real, n as real, c);
  }

  /** A point lies in cell `cell`. */
  predicate CellHolds(c: PosReal, cell: Cell, p: Vec3)
  {
    && cell.gx as real * c <= p.x < (cell.gx + 1) as real * c
    && cell.gz as real * c <= p.z < (cell.gz + 1) as real * c
  }

  /** The floor of a point's coordinates over the cell size. */
  function CellContaining(c: PosReal, p: Vec3): Cell
  {
    Cell(FloorDiv(p.x, c), FloorDiv(p.z, c))
  }

  /** Flooring finds the one cell that holds a point; the height is
      irrelevant. */
  lemma CellContainingIsUnique(c: PosReal, p: Vec3)
    ensures CellHolds(c, CellContaining(c, p), p)
    ensures forall cell :: CellHolds(c, cell, p) ==> cell == CellContaining(c, p)
  {
    FloorDivBounds(p.x, c);
    FloorDivBounds(p.z, c);
    forall cell | CellHolds(c, cell, p) ensures cell == CellContaining(c, p) {
      FloorDivUnique(p.x, c, cell.gx);
      FloorDivUnique(p.z, c, cell.gz);
    }
  }

  /** A real number is a whole multiple of the cell size. */
  predicate OnGridLine(a: real, c: PosReal)
  {
    FloorDiv(a, c) as real * c == a
  }

  lemma MultipleOnGridLine(k: int, c: PosReal)
    ensures OnGridLine(k as real * c, c)
  {
    FloorDivUnique(k as real * c, c, k);
  }

  /** `GetSnappedPosition`: the centre of a footprint of `size` cells whose
      lower corner is the lower corner of the cell holding `hit`, at
      marker height whatever the height of `hit`. */
  function GetSnappedPosition(c: PosReal, hit: Vec3, size: Vec2Int): (r: Vec3)
    ensures r.y == MarkerHeight
    ensures var lo := r.x - (size.x as real * c) / 2.0; OnGridLine(lo, c) && lo <= hit.x < lo + c
    ensures var lo := r.z - (size.y as real * c) / 2.0; OnGridLine(lo, c) && lo <= hit.z < lo + c
  {
    var kx := FloorDiv(hit.x, c);
    var kz := FloorDiv(hit.z, c);
    FloorDivBounds(hit.x, c);
    FloorDivBounds(hit.z, c);
    MultipleOnGridLine(kx, c);
    MultipleOnGridLine(kz, c);
    var x := kx as real * c;
    var z := kz as real * c;
    Vec3(x + (size.x as real * c) / 2.0, MarkerHeight, z + (size.y as real * c) / 2.0)
  }

  /** The floor-then-recentre key that `GetCellAtPosition` looks up. */
  function KeyAt(c: PosReal, p: Vec3): Vec3
  {
    Vec3(FloorDiv(p.x, c) as real * c + c / 2.0, MarkerHeight, FloorDiv(p.z, c) as real * c + c / 2.0)
  }

  /** `GetCellAtPosition`: the materialised cell that holds `p`, or nothing
      when the cell holding `p` was never materialised. */
  function GetCellAtPosition(g: Grid, p: Vec3): (r: Option<Cell>)
    ensures r.Some? <==> exists cell :: cell in g.cells && CellHolds(g.cellSize, cell, p)
    ensures r.Some? ==> r.value in g.cells && CellHolds(g.cellSize, r.value, p)
  {
    CellContainingIsUnique(g.cellSize, p);
    var cell := CellContaining(g.cellSize, p);
    if cell in g.cells then Some(cell) else None
  }

  /** Every point of a half-open cell canonicalises to that cell's key, and
      canonicalising a key gives the key back. */
  lemma KeyAtIsCanonical(c: PosReal, cell: Cell, p: Vec3)
    requires CellHolds(c, cell, p)
    ensures KeyAt(c, p) == CellKey(c, cell)
    ensures KeyAt(c, CellKey(c, cell)) == CellKey(c, cell)
  {
    CellContainingIsUnique(c, p);
    var k := CellKey(c, cell);
    assert cell.gx as real * c <= k.x < (cell.gx + 1) as real * c;
    assert cell.gz as real * c <= k.z < (cell.gz + 1) as real * c;
    assert CellHolds(c, cell, k);
    CellContainingIsUnique(c, k);
    assert FloorDiv(k.x, c) == cell.gx && FloorDiv(k.z, c) == cell.gz;
  }

  /** A cell's key lies in that cell. */
  lemma CellOfKey(c: PosReal, cell: Cell)
    ensures CellContaining(c, CellKey(c, cell)) == cell
  {
    var k := CellKey(c, cell);
    assert CellHolds(c, cell, k);
    CellContainingIsUnique(c, k);
  }

  /** Distinct cells have distinct keys. */
  lemma CellKeyInjective(c: PosReal, a: Cell, b: Cell)
    requires CellKey(c, a) == CellKey(c, b)
    ensures a == b
  {
    var k := CellKey(c, a);
    assert CellHolds(c, a, k) && CellHolds(c, b, k);
    CellContainingIsUnique(c, k);
  }

  /** The dictionary's key set: the centres of the materialised cells. */
  function KeySet(g: Grid): set<Vec3>
  {
    set cell | cell in g.cells :: CellKey(g.cellSize, cell)
  }

  /** Looking the canonical key up among the centre vectors finds a cell
      exactly when the index lookup does: in exact arithmetic the key
      dictionary and the set of indices are the same grid. */
  lemma KeyLookupAgrees(g: Grid, p: Vec3)
    ensures KeyAt(g.cellSize, p) in KeySet(g) <==> GetCellAtPosition(g, p).Some?
  {
    var c := g.cellSize;
    var home := CellContaining(c, p);
    CellContainingIsUnique(c, p);
    KeyAtIsCanonical(c, home, p);
    if KeyAt(c, p) in KeySet(g) {
      var cell :| cell in g.cells && CellKey(c, cell) == KeyAt(c, p);
      CellKeyInjective(c, cell, home);
    }
  }

  /** A one-cell footprint snaps to the key of the cell under the cursor. */
  lemma SnapUnitIsCellKey(c: PosReal, hit: Vec3)
    ensures GetSnappedPosition(c, hit, Vec2Int(1, 1)) == CellKey(c, CellContaining(c, hit))
    ensures GetSnappedPosition(c, hit, Vec2Int(1, 1)) == KeyAt(c, hit)
  {
  }
}

=== FILE: noise.dfy ===
/** The land/water classification that the placement grid and the terrain
    mesher both compute from the same generator parameters. Perlin noise is
    an engine function and stays uninterpreted: any total function of two
    reals may stand for it. */
module Noise {
  import opened Basics

  /** `Mathf.PerlinNoise`. */
  type NoiseFn = (real, real) -> real

  /** The generator parameters the grid and the mesher must agree on: world
      extent in voxels, voxel edge length, seed, noise scale and threshold. */
  datatype Terrain = Terrain(
    worldWidth: int,
    worldHeight: int,
    voxelSize: PosReal,
    seed: int,
    noiseScale: NonZeroReal,
    threshold: real)

  /** The noise value of world voxel `(wx, wy)`: the seed shifts both
      coordinates before they are scaled. */
  function Sample(noise: NoiseFn, t: Terrain, wx: int, wy: int): real
  {
    noise((wx + t.seed) as real / t.noiseScale, (wy + t.seed) as real / t.noiseScale)
  }

  /** The seed a generator component runs with: the configured seed, or,
      when that is 0, the draw it takes from `Random.Range(1, 100000)`
      (passed in, since randomness is outside the model). */
  function StartSeed(configured: int, draw: int): (s: int)
    requires 1 <= draw < 100000
    ensures s != 0
    ensures configured != 0 ==> s == configured
    ensures configured == 0 ==> 1 <= s < 100000
  {
    if configured == 0 then draw else configured
  }

  /** A voxel is land exactly when its noise value lies strictly above the
      threshold; a value equal to the threshold is water. */
  predicate IsLand(noise: NoiseFn, t: Terrain, wx: int, wy: int)
  {
    Sample(noise, t, wx, wy) > t.threshold
  }
}

=== FILE: scenario.dfy ===
/** One placement session with the inspector defaults, traced through the
    model: a ledger of 100 money and 50 resources affords the default 2x2
    building exactly once. */
module Scenario {
  import opened Basics
  import opened CityStats
  import opened StatsManager
  import opened Grid
  import opened Buildings
  import opened Placement

  /** The starting ledger: budget 100 and resources 50. */
  function StartingLedger(): (l: Ledger)
    ensures GetStat(l, BudgetStat) == 100.0 && GetStat(l, ResourcesStat) == 50.0
    ensures l.Keys == {BudgetStat, ResourcesStat}
  {
    var stats := [Stat(BudgetStat, 100.0, 100.0), Stat(ResourcesStat, 50.0, 50.0)];
    assert LastOfName(stats, 0) && LastOfName(stats, 1);
    assert stats[0].name in Names(stats) && stats[1].name in Names(stats);
    assert Names(stats) == {BudgetStat, ResourcesStat};
    InitStats(stats)
  }

  /** A 2x2 island of cells of edge 0.8 at the origin. */
  const Island: Grid := Grid(0.8, {Cell(0, 0), Cell(0, 1), Cell(1, 0), Cell(1, 1)})

  /** A click with the cursor at (0.1, 0, 0.1), inside cell (0, 0). */
  const ClickNearOrigin: Input := Input(Some(Vec3(0.1, 0.0, 0.1)), false, false, true, false, false)

  /** Starting is approved; the click builds on the island and spends all
      money and all resources; a second start is then refused with the
      insufficient-funds notice and leaves the session idle. */
  lemma DefaultBuildingAffordedOnce()
    ensures
      var started := StartPlacingBuilding(InitialSession, StartingLedger(), DefaultBuilding);
      var placed := Tick(started.session, started.ledger, Island, ClickNearOrigin);
      var again := StartPlacingBuilding(placed.session, placed.ledger, DefaultBuilding);
      && started.session == Placing(DefaultBuilding, SpawnedPreview) && started.events == []
      && placed.session == Idle(Some(DefaultBuilding))
      && |placed.events| == 1 && placed.events[0].Built?
      && GetStat(placed.ledger, BudgetStat) == 0.0 && GetStat(placed.ledger, ResourcesStat) == 0.0
      && again.session == Idle(Some(DefaultBuilding)) && again.events == [Notify(InsufficientFunds)]
  {
    var l := StartingLedger();
    var started := StartPlacingBuilding(InitialSession, l, DefaultBuilding);
    FloorDivUnique(0.1, 0.8, 0);
    var base := CellContaining(0.8, Vec3(0.1, 0.0, 0.1));
    assert base == Cell(0, 0);
    assert BlockMaterialised(Island, base, DefaultBuilding.gridSize) by {
      forall x, z | 0 <= x < 2 && 0 <= z < 2 ensures BlockCell(base, x, z) in Island.cells {
        assert BlockCell(base, x, z) == Cell(x, z);
      }
    }
    ClickAtCursor(DefaultBuilding, SpawnedPreview, l, Island, ClickNearOrigin);
  }
}

=== FILE: world_generator.dfy ===
/** The terrain mesher (`WorldGenerator`): the world is cut into square
    chunks, and each chunk is meshed as one flat quad per cell (land raised
    to one voxel and green, water at 0 and blue) in flat vertex, uv, colour
    and triangle buffers. Handing the buffers to the engine is left out. */
module World {
  import opened Basics
  import opened Noise
  import Grid

  /** The generator's inspector settings. */
  datatype WorldConfig = WorldConfig(terrain: Terrain, chunkSize: PosInt)

  /** A chunk's position in the chunk grid. */
  datatype ChunkId = ChunkId(cx: int, cy: int)

  /** Vertex colours: Unity's `Color.green` (0, 1, 0, 1) and
      `Color.blue` (0, 0, 1, 1). */
  datatype Tone = Green | Blue

  datatype MeshData = MeshData(
    vertices: seq<Vec3>,
    uvs: seq<Vec2>,
    colors: seq<Tone>,
    triangles: seq<int>)

  /** A generated chunk: its id, the world position of its local origin,
      and its mesh in chunk-local coordinates. */
  datatype Chunk = Chunk(id: ChunkId, origin: Vec3, mesh: MeshData)

  /** `numChunksX` / `numChunksY`: `CeilToInt((float)extent / chunkSize)`,
      the fewest chunks that cover `extent` cells. */
  function NumChunks(extent: int, n: PosInt): (k: int)
    ensures extent > 0 ==> (k - 1) * n < extent <= k * n
    ensures extent <= 0 ==> k <= 0
  {
    CeilDivBounds(extent, n);
    CeilToInt(extent as real / n as real)
  }

  function NumChunksX(cfg: WorldConfig): int
  {
    NumChunks(cfg.terrain.worldWidth, cfg.chunkSize)
  }

  function NumChunksY(cfg: WorldConfig): int
  {
    NumChunks(cfg.terrain.worldHeight, cfg.chunkSize)
  }

  /** Local cell `(x, y)` of chunk `id` is world cell
      `(cx*chunkSize + x, cy*chunkSize + y)`, classified by the shared
      noise rule. */
  predicate CellIsLand(noise: NoiseFn, cfg: WorldConfig, id: ChunkId, x: int, y: int)
  {
    IsLand(noise, cfg.terrain, id.cx * cfg.chunkSize + x, id.cy * cfg.chunkSize + y)
  }

  function ToneOf(land: bool): Tone
  {
    if land then Green else Blue
  }

  const EmptyMesh: MeshData := MeshData([], [], [], [])

  /** The chunk-local point of lattice corner `(i, j)` at height `h`. */
  function LatticePoint(v: real, i: int, j: int, h: real): Vec3
  {
    Vec3(i as real * v, h, j as real * v)
  }

  /** The quad of local cell `(x, y)` whose first vertex has index `base`:
      corners `(x, y), (x+1, y), (x+1, y+1), (x, y+1)` scaled by the voxel
      size, at height `v` for land and 0 for water; one colour; uvs
      `(0,0), (1,0), (1,1), (0,1)`; triangles `(0,2,1)` and `(0,3,2)`. */
  function Quad(v: real, x: int, y: int, land: bool, base: int): MeshData
  {
    var h := if land then v else 0.0;
    var t := ToneOf(land);
    MeshData(
      [LatticePoint(v, x, y, h), LatticePoint(v, x + 1, y, h),
       LatticePoint(v, x + 1, y + 1, h), LatticePoint(v, x, y + 1, h)],
      [Vec2(0.0, 0.0), Vec2(1.0, 0.0), Vec2(1.0, 1.0), Vec2(0.0, 1.0)],
      [t, t, t, t],
      [base, base + 2, base + 1, base, base + 3, base + 2])
  }

  /** Buffers appended buffer by buffer. */
  function Concat(m: MeshData, k: MeshData): MeshData
  {
    MeshData(m.vertices + k.vertices, m.uvs + k.uvs, m.colors + k.colors, m.triangles + k.triangles)
  }

  /** The buffers after the mesher has emitted every cell before `(x, y)`
      in its order (X outer, Y inner): all cells of columns `0 .. x-1`,
      then cells `(x, 0) .. (x, y-1)`. Each quad's triangles start at the
      number of vertices already emitted. */
  function Emitted(noise: NoiseFn, cfg: WorldConfig, id: ChunkId, x: nat, y: nat): MeshData
    requires y <= cfg.chunkSize
    decreases x, y
  {
    if y == 0 then
      if x == 0 then EmptyMesh else Emitted(noise, cfg, id, x - 1, cfg.chunkSize)
    else
      EmitCell(noise, cfg, id, Emitted(noise, cfg, id, x, y - 1), x, y - 1)
  }

  /** Emitting cell `(x, y)` after the buffers `m` appends its quad,
      numbered from the vertex count so far. */
  function EmitCell(noise: NoiseFn, cfg: WorldConfig, id: ChunkId, m: MeshData, x: int, y: int): MeshData
  {
    Concat(m, Quad(cfg.terrain.voxelSize, x, y, CellIsLand(noise, cfg, id, x, y), |m.vertices|))
  }

  /** The whole mesh of a chunk. */
  function ChunkMesh(noise: NoiseFn, cfg: WorldConfig, id: ChunkId): MeshData
  {
    Emitted(noise, cfg, id, cfg.chunkSize, 0)
  }

  /** The world position of a chunk's local origin. */
  function ChunkOrigin(cfg: WorldConfig, id: ChunkId): Vec3
  {
    var n := cfg.chunkSize;
    var v := cfg.terrain.voxelSize;
    Vec3((id.cx * n) as real * v, 0.0, (id.cy * n) as real * v)
  }

  /** Position of `(x, y)` in the order X outer, Y inner, with `n` per
      row: a cell's quad in a chunk's buffers, and a chunk in the
      generator's list. */
  function Order(n: int, x: int, y: int): int
  {
    x * n + y
  }

  /** Every triangle index names a vertex of the same buffers. */
  ghost predicate TrianglesInRange(m: MeshData)
  {
    forall i :: 0 <= i < |m.triangles| ==> 0 <= m.triangles[i] < |m.vertices|
  }

  /** Emitting one cell adds four vertices, uvs and colours and six
      triangle indices, all naming vertices. */
  lemma EmitCellShape(noise: NoiseFn, cfg: WorldConfig, id: ChunkId, m: MeshData, x: int, y: int)
    ensures var r := EmitCell(noise, cfg, id, m, x, y);
      && |r.vertices| == |m.vertices| + 4 && |r.uvs| == |m.uvs| + 4
      && |r.colors| == |m.colors| + 4 && |r.triangles| == |m.triangles| + 6
      && (TrianglesInRange(m) ==> TrianglesInRange(r))
  {
    var r := EmitCell(noise, cfg, id, m, x, y);
    if TrianglesInRange(m) {
      forall i | 0 <= i < |r.triangles| ensures 0 <= r.triangles[i] < |r.vertices| {
        if i < |m.triangles| {
          assert r.triangles[i] == m.triangles[i];
        }
      }
    }
  }

  /** After `k` cells the buffers hold `4k` vertices, uvs and colours and
      `6k` triangle indices, and every triangle index names an emitted
      vertex. */
  lemma {:induction false} EmittedShape(noise: NoiseFn, cfg: WorldConfig, id: ChunkId, x: nat, y: nat)
    requires y <= cfg.chunkSize
    ensures var m := Emitted(noise, cfg, id, x, y);
      var k := Order(cfg.chunkSize, x, y);
      && |m.vertices| == 4 * k && |m.uvs| == 4 * k && |m.colors| == 4 * k
      && |m.triangles| == 6 * k
      && TrianglesInRange(m)
    decreases x, y
  {
    var n: int := cfg.chunkSize;
    if y == 0 {
      if x > 0 {
        EmittedShape(noise, cfg, id, x - 1, n);
        assert Order(n, x - 1, n) == Order(n, x, 0);
      }
    } else {
      EmittedShape(noise, cfg, id, x, y - 1);
      EmitCellShape(noise, cfg, id, Emitted(noise, cfg, id, x, y - 1), x, y - 1);
      assert Order(n, x, y) == Order(n, x, y - 1) + 1;
    }
  }

  /** Every buffer of `m` is a prefix of the same buffer of `m2`. */
  ghost predicate MeshPrefix(m: MeshData, m2: MeshData)
  {
    && |m.vertices| <= |m2.vertices| && m2.vertices[..|m.vertices|] == m.vertices
    && |m.uvs| <= |m2.uvs| && m2.uvs[..|m.uvs|] == m.uvs
    && |m.colors| <= |m2.colors| && m2.colors[..|m.colors|] == m.colors
    && |m.triangles| <= |m2.triangles| && m2.triangles[..|m.triangles|] == m.triangles
  }

  lemma PrefixThroughConcat(m: MeshData, m2: MeshData, k: MeshData)
    requires MeshPrefix(m, m2)
    ensures MeshPrefix(m, Concat(m2, k))
  {
    var r := Concat(m2, k);
    assert r.vertices[..|m.vertices|] == m2.vertices[..|m.vertices|];
    assert r.uvs[..|m.uvs|] == m2.uvs[..|m.uvs|];
    assert r.colors[..|m.colors|] == m2.colors[..|m.colors|];
    assert r.triangles[..|m.triangles|] == m2.triangles[..|m.triangles|];
  }

  /** The buffers emitted up to a point are a prefix of those emitted up
      to any later point: the mesher only ever appends. */
  lemma {:induction false} EmittedGrows(noise: NoiseFn, cfg: WorldConfig, id: ChunkId, x: nat, y: nat, x2: nat, y2: nat)
    requires y <= cfg.chunkSize && y2 <= cfg.chunkSize
    requires x < x2 || (x == x2 && y <= y2)
    ensures MeshPrefix(Emitted(noise, cfg, id, x, y), Emitted(noise, cfg, id, x2, y2))
    decreases x2, y2
  {
    var m := Emitted(noise, cfg, id, x, y);
    if x == x2 && y == y2 {
      assert m.vertices[..|m.vertices|] == m.vertices;
      assert m.uvs[..|m.uvs|] == m.uvs;
      assert m.colors[..|m.colors|] == m.colors;
      assert m.triangles[..|m.triangles|] == m.triangles;
    } else if y2 == 0 {
      EmittedGrows(noise, cfg, id, x, y, x2 - 1, cfg.chunkSize);
    } else {
      EmittedGrows(noise, cfg, id, x, y, x2, y2 - 1);
      var prev := Emitted(noise, cfg, id, x2, y2 - 1);
      PrefixThroughConcat(m, prev,
        Quad(cfg.terrain.voxelSize, x2, y2 - 1, CellIsLand(noise, cfg, id, x2, y2 - 1), |prev.vertices|));
    }
  }

  /** Where cell `(x, y)` lands in the chunk's buffers: with
      `q = x*chunkSize + y`, vertices, uvs and colours `4q .. 4q+3` and
      triangle indices `6q .. 6q+5` are exactly that cell's quad, whose
      triangles refer to vertices `4q .. 4q+3`. */
  lemma QuadLayout(noise: NoiseFn, cfg: WorldConfig, id: ChunkId, x: int, y: int)
    requires 0 <= x < cfg.chunkSize && 0 <= y < cfg.chunkSize
    ensures
      var m := ChunkMesh(noise, cfg, id);
      var n := cfg.chunkSize;
      var v := cfg.terrain.voxelSize;
      var q := x * n + y;
      var land := IsLand(noise, cfg.terrain, id.cx * n + x, id.cy * n + y);
      var h := if land then v else 0.0;
      var tone := if land then Green else Blue;
      && 0 <= 4 * q && 4 * q + 4 <= |m.vertices| == |m.uvs| == |m.colors|
      && 6 * q + 6 <= |m.triangles|
      && m.vertices[4 * q .. 4 * q + 4] == [
           Vec3(x as real * v, h, y as real * v),
           Vec3((x + 1) as real * v, h, y as real * v),
           Vec3((x + 1) as real * v, h, (y + 1) as real * v),
           Vec3(x as real * v, h, (y + 1) as real * v)]
      && m.colors[4 * q .. 4 * q + 4] == [tone, tone, tone, tone]
      && m.uvs[4 * q .. 4 * q + 4] == [Vec2(0.0, 0.0), Vec2(1.0, 0.0), Vec2(1.0, 1.0), Vec2(0.0, 1.0)]
      && m.triangles[6 * q .. 6 * q + 6] == [4 * q, 4 * q + 2, 4 * q + 1, 4 * q, 4 * q + 3, 4 * q + 2]
  {
    CellInChunk(noise, cfg, id, x, y);
  }

  /** The entries that cell `(x, y)` owns in the chunk's buffers are its
      quad, numbered from vertex `4q` for `q = Order(n, x, y)`. */
  lemma CellInChunk(noise: NoiseFn, cfg: WorldConfig, id: ChunkId, x: nat, y: nat)
    requires x < cfg.chunkSize && y < cfg.chunkSize
    ensures
      var m := ChunkMesh(noise, cfg, id);
      var q := Order(cfg.chunkSize, x, y);
      var quad := Quad(cfg.terrain.voxelSize, x, y, CellIsLand(noise, cfg, id, x, y), 4 * q);
      && 0 <= q && 4 * q + 4 <= |m.vertices| == |m.uvs| == |m.colors|
      && 6 * q + 6 <= |m.triangles|
      && m.vertices[4 * q .. 4 * q + 4] == quad.vertices
      && m.uvs[4 * q .. 4 * q + 4] == quad.uvs
      && m.colors[4 * q .. 4 * q + 4] == quad.colors
      && m.triangles[6 * q .. 6 * q + 6] == quad.triangles
  {
    var n: int := cfg.chunkSize;
    var q := Order(n, x, y);
    var m := ChunkMesh(noise, cfg, id);
    var before := Emitted(noise, cfg, id, x, y);
    var after := Emitted(noise, cfg, id, x, y + 1);
    var quad := Quad(cfg.terrain.voxelSize, x, y, CellIsLand(noise, cfg, id, x, y), 4 * q);
    EmittedShape(noise, cfg, id, x, y);
    EmitStep(noise, cfg, id, x, y);
    assert after == Concat(before, quad);
    EmittedGrows(noise, cfg, id, x, y + 1, n, 0);
    ChunkMeshShape(noise, cfg, id);
    SliceOfExtension(m.vertices, before.vertices, quad.vertices);
    SliceOfExtension(m.uvs, before.uvs, quad.uvs);
    SliceOfExtension(m.colors, before.colors, quad.colors);
    SliceOfExtension(m.triangles, before.triangles, quad.triangles);
  }

  /** If `a` extends `p + s`, the entries of `a` just past `p` are `s`. */
  lemma SliceOfExtension<T>(a: seq<T>, p: seq<T>, s: seq<T>)
    requires |p + s| <= |a| && a[..|p + s|] == p + s
    ensures a[|p| .. |p| + |s|] == s
  {
    assert a[|p| .. |p| + |s|] == a[..|p + s|][|p| ..];
  }

  /** Emitting cell `(x, y)` after the cells before it appends that cell. */
  lemma EmitStep(noise: NoiseFn, cfg: WorldConfig, id: ChunkId, x: nat, y: nat)
    requires y < cfg.chunkSize
    ensures Emitted(noise, cfg, id, x, y + 1) == EmitCell(noise, cfg, id, Emitted(noise, cfg, id, x, y), x, y)
  {
  }

  /** A whole chunk holds `4 n^2` vertices, uvs and colours and `6 n^2`
      triangle indices for chunk size `n`, and every triangle index names
      one of its vertices. */
  lemma ChunkMeshShape(noise: NoiseFn, cfg: WorldConfig, id: ChunkId)
    ensures var m := ChunkMesh(noise, cfg, id);
      var n := cfg.chunkSize;
      && |m.vertices| == |m.uvs| == |m.colors| == 4 * (n * n)
      && |m.triangles| == 6 * (n * n)
      && (forall i :: 0 <= i < |m.triangles| ==> 0 <= m.triangles[i] < |m.vertices|)
  {
    assert Order(cfg.chunkSize, cfg.chunkSize, 0) == cfg.chunkSize * cfg.chunkSize;
    EmittedShape(noise, cfg, id, cfg.chunkSize, 0);
  }

  /** Appending one cell's entries buffer by buffer, as the mesher does,
      emits that cell. */
  lemma AppendedQuad(noise: NoiseFn, cfg: WorldConfig, id: ChunkId, m: MeshData, x: int, y: int)
    ensures
      var v := cfg.terrain.voxelSize;
      var land := IsLand(noise, cfg.terrain, id.cx * cfg.chunkSize + x, id.cy * cfg.chunkSize + y);
      var h := if land then v else 0.0;
      var t := ToneOf(land);
      var base := |m.vertices|;
      MeshData(
        m.vertices + [LatticePoint(v, x, y, h), LatticePoint(v, x + 1, y, h),
                      LatticePoint(v, x + 1, y + 1, h), LatticePoint(v, x, y + 1, h)],
        m.uvs + [Vec2(0.0, 0.0), Vec2(1.0, 0.0), Vec2(1.0, 1.0), Vec2(0.0, 1.0)],
        m.colors + [t, t, t, t],
        m.triangles + [base, base + 2, base + 1, base, base + 3, base + 2])
      == EmitCell(noise, cfg, id, m, x, y)
  {
  }

  /** The inner loop of `CreateChunk`: emits the cells `(x, 0) ..
      (x, n-1)` of one column, four vertices, four uvs, four colours and
      six triangle indices per cell, triangles numbered from the running
      vertex count `vertIndex`. */
  method EmitColumn(noise: NoiseFn, cfg: WorldConfig, id: ChunkId, x: nat, mesh: MeshData, vertIndex0: int)
    returns (mesh': MeshData, vertIndex: int)
    requires mesh == Emitted(noise, cfg, id, x, 0) && vertIndex0 == |mesh.vertices|
    ensures mesh' == Emitted(noise, cfg, id, x, cfg.chunkSize) && vertIndex == |mesh'.vertices|
  {
    var n: int := cfg.chunkSize;
    var v := cfg.terrain.voxelSize;
    var vertices, uvs, colors, triangles := mesh.vertices, mesh.uvs, mesh.colors, mesh.triangles;
    vertIndex := vertIndex0;
    var y: nat := 0;
    while y < n
      invariant y <= n
      invariant MeshData(vertices, uvs, colors, triangles) == Emitted(noise, cfg, id, x, y)
      invariant vertIndex == |vertices|
    {
      var worldX := id.cx * n + x;
      var worldY := id.cy * n + y;
      var isLand := IsLand(noise, cfg.terrain, worldX, worldY);
      var cellColor := ToneOf(isLand);
      var cellHeight := if isLand then v else 0.0;
      EmitStep(noise, cfg, id, x, y);
      AppendedQuad(noise, cfg, id, MeshData(vertices, uvs, colors, triangles), x, y);
      vertices := vertices + [
        LatticePoint(v, x, y, cellHeight),
        LatticePoint(v, x + 1, y, cellHeight),
        LatticePoint(v, x + 1, y + 1, cellHeight),
        LatticePoint(v, x, y + 1, cellHeight)];
      uvs := uvs + [Vec2(0.0, 0.0), Vec2(1.0, 0.0), Vec2(1.0, 1.0), Vec2(0.0, 1.0)];
      colors := colors + [cellColor, cellColor, cellColor, cellColor];
      triangles := triangles + [
        vertIndex, vertIndex + 2, vertIndex + 1,
        vertIndex, vertIndex + 3, vertIndex + 2];
      vertIndex := vertIndex + 4;
      y := y + 1;
    }
    mesh' := MeshData(vertices, uvs, colors, triangles);
  }

  /** `CreateChunk`: meshes the chunk's cells column by column and places
      the chunk at its world origin. */
  method CreateChunk(noise: NoiseFn, cfg: WorldConfig, id: ChunkId) returns (chunk: Chunk)
    ensures chunk.id == id && chunk.origin == ChunkOrigin(cfg, id)
    ensures chunk.mesh == ChunkMesh(noise, cfg, id)
    ensures |chunk.mesh.vertices| == |chunk.mesh.uvs| == |chunk.mesh.colors| ==
      4 * (cfg.chunkSize * cfg.chunkSize)
    ensures |chunk.mesh.triangles| == 6 * (cfg.chunkSize * cfg.chunkSize)
    ensures forall i :: 0 <= i < |chunk.mesh.triangles| ==>
      0 <= chunk.mesh.triangles[i] < |chunk.mesh.vertices|
  {
    var mesh := EmptyMesh;
    var vertIndex := 0;
    var x: nat := 0;
    while x < cfg.chunkSize
      invariant x <= cfg.chunkSize
      invariant mesh == Emitted(noise, cfg, id, x, 0) && vertIndex == |mesh.vertices|
    {
      mesh, vertIndex := EmitColumn(noise, cfg, id, x, mesh, vertIndex);
      x := x + 1;
    }
    ChunkMeshShape(noise, cfg, id);
    chunk := Chunk(id, ChunkOrigin(cfg, id), mesh);
  }

  /** Chunk-local coordinates plus the chunk origin are world coordinates:
      local cell `x` of chunk `cx` sits at world cell `cx*chunkSize + x`. */
  lemma LocalPlusOriginIsWorld(cfg: WorldConfig, id: ChunkId, x: int, y: int)
    ensures
      var n := cfg.chunkSize;
      var v := cfg.terrain.voxelSize;
      var o := ChunkOrigin(cfg, id);
      && o.x + x as real * v == (id.cx * n + x) as real * v
      && o.z + y as real * v == (id.cy * n + y) as real * v
      && o.y == 0.0
  {
    SumTimes(id.cx * cfg.chunkSize, x, cfg.terrain.voxelSize);
    SumTimes(id.cy * cfg.chunkSize, y, cfg.terrain.voxelSize);
  }

  /** Every world cell along an axis belongs to a chunk that the generator
      creates, at local offset `w % chunkSize`; and the last chunk starts
      inside the world. */
  lemma ChunksCoverWorld(extent: int, n: PosInt, w: int)
    requires 0 <= w < extent
    ensures 0 <= w / n < NumChunks(extent, n)
    ensures (w / n) * n + w % n == w && 0 <= w % n < n
    ensures (NumChunks(extent, n) - 1) * n < extent
  {
    var k := NumChunks(extent, n);
    var c := w / n;
    assert c * n + w % n == w;
    if c >= k {
      MulIntMono(k, c, n);
      assert false;
    }
  }

  /** Distinct (chunk, local offset) pairs name distinct world cells, so
      chunks never overlap. */
  lemma ChunkCellsDisjoint(n: PosInt, c1: int, x1: int, c2: int, x2: int)
    requires 0 <= x1 < n && 0 <= x2 < n
    requires c1 * n + x1 == c2 * n + x2
    ensures c1 == c2 && x1 == x2
  {
    DivModSlot(c1 * n + x1, n, c1, x1);
    DivModSlot(c2 * n + x2, n, c2, x2);
  }

  /** The grid's land test of a ground point and the mesher's colour of the
      quad under that point agree: both classify the voxel
      `(floor(p.x / v), floor(p.z / v))` with the same rule. */
  lemma GridAgreesWithTerrain(noise: NoiseFn, cfg: WorldConfig, p: Vec3)
    requires 0 <= FloorDiv(p.x, cfg.terrain.voxelSize) && 0 <= FloorDiv(p.z, cfg.terrain.voxelSize)
    ensures
      var n := cfg.chunkSize;
      var wx := FloorDiv(p.x, cfg.terrain.voxelSize);
      var wy := FloorDiv(p.z, cfg.terrain.voxelSize);
      var m := ChunkMesh(noise, cfg, ChunkId(wx / n, wy / n));
      var q := (wx % n) * n + wy % n;
      && 0 <= 4 * q < |m.colors|
      && (Grid.PointIsLand(noise, cfg.terrain, p) <==> m.colors[4 * q] == Green)
  {
    var n: int := cfg.chunkSize;
    var wx := FloorDiv(p.x, cfg.terrain.voxelSize);
    var wy := FloorDiv(p.z, cfg.terrain.voxelSize);
    var id := ChunkId(wx / n, wy / n);
    var x, y := wx % n, wy % n;
    QuadLayout(noise, cfg, id, x, y);
    var m := ChunkMesh(noise, cfg, id);
    var q := x * n + y;
    assert m.colors[4 * q] == m.colors[4 * q .. 4 * q + 4][0];
    assert id.cx * n + x == wx && id.cy * n + y == wy;
  }

  /** Earlier rows of the X-major order come before row `cx`. */
  lemma OrderBelowRow(ny: int, a: int, b: int, cx: int)
    requires 0 <= a < cx && 0 <= b < ny
    ensures 0 <= Order(ny, a, b) < cx * ny
  {
    MulIntMono(a + 1, cx, ny);
  }

  /** A chunk as `CreateChunk` makes it, for a chunk position the
      generator visits. */
  predicate Generated(noise: NoiseFn, cfg: WorldConfig, c: Chunk)
  {
    && 0 <= c.id.cx < NumChunksX(cfg) && 0 <= c.id.cy < NumChunksY(cfg)
    && c.origin == ChunkOrigin(cfg, c.id)
    && c.mesh == ChunkMesh(noise, cfg, c.id)
  }

  /** The inner loop of `GenerateWorld`: appends the chunks of column `cx`,
      `cy` ascending, after the chunks already made. */
  method GenerateColumn(noise: NoiseFn, cfg: WorldConfig, cx: int, prefix: seq<Chunk>) returns (chunks: seq<Chunk>)
    requires 0 <= cx < NumChunksX(cfg)
    requires forall i :: 0 <= i < |prefix| ==> Generated(noise, cfg, prefix[i])
    ensures |chunks| == |prefix| + (if NumChunksY(cfg) > 0 then NumChunksY(cfg) else 0)
    ensures chunks[..|prefix|] == prefix
    ensures forall i :: 0 <= i < |chunks| ==> Generated(noise, cfg, chunks[i])
    ensures forall cy :: 0 <= cy < NumChunksY(cfg) ==> chunks[|prefix| + cy].id == ChunkId(cx, cy)
  {
    var ny := NumChunksY(cfg);
    chunks := prefix;
    var cy := 0;
    while cy < ny
      invariant 0 <= cy && (cy <= ny || cy == 0)
      invariant |chunks| == |prefix| + cy
      invariant chunks[..|prefix|] == prefix
      invariant forall i :: 0 <= i < |chunks| ==> Generated(noise, cfg, chunks[i])
      invariant forall b :: 0 <= b < cy ==> chunks[|prefix| + b].id == ChunkId(cx, b)
    {
      var chunk := CreateChunk(noise, cfg, ChunkId(cx, cy));
      chunks := chunks + [chunk];
      cy := cy + 1;
    }
  }

  /** `GenerateWorld`: creates chunk `(cx, cy)` for every `cx` below the X
      chunk count and `cy` below the Y chunk count, X outer and Y inner. */
  method GenerateWorld(noise: NoiseFn, cfg: WorldConfig) returns (chunks: seq<Chunk>)
    ensures
      var nx := NumChunksX(cfg);
      var ny := NumChunksY(cfg);
      |chunks| == if nx > 0 && ny > 0 then nx * ny else 0
    ensures forall i :: 0 <= i < |chunks| ==>
      && 0 <= chunks[i].id.cx < NumChunksX(cfg) && 0 <= chunks[i].id.cy < NumChunksY(cfg)
      && chunks[i].origin == ChunkOrigin(cfg, chunks[i].id)
      && chunks[i].mesh == ChunkMesh(noise, cfg, chunks[i].id)
    ensures
      var nx := NumChunksX(cfg);
      var ny := NumChunksY(cfg);
      forall cx, cy :: 0 <= cx < nx && 0 <= cy < ny ==>
        0 <= Order(ny, cx, cy) < |chunks| && chunks[Order(ny, cx, cy)].id == ChunkId(cx, cy)
  {
    var nx := NumChunksX(cfg);
    var ny := NumChunksY(cfg);
    chunks := [];
    // With no chunk along either axis the loops below create nothing.
    if nx <= 0 || ny <= 0 {
      return;
    }
    var cx := 0;
    while cx < nx
      invariant 0 <= cx <= nx
      invariant |chunks| == cx * ny
      invariant forall i :: 0 <= i < |chunks| ==> Generated(noise, cfg, chunks[i])
      invariant forall a, b :: 0 <= a < cx && 0 <= b < ny ==>
        0 <= Order(ny, a, b) < |chunks| && chunks[Order(ny, a, b)].id == ChunkId(a, b)
    {
      var before := chunks;
      chunks := GenerateColumn(noise, cfg, cx, before);
      forall a, b | 0 <= a < cx + 1 && 0 <= b < ny
        ensures 0 <= Order(ny, a, b) < |chunks| && chunks[Order(ny, a, b)].id == ChunkId(a, b)
      {
        if a < cx {
          OrderBelowRow(ny, a, b, cx);
          assert chunks[Order(ny, a, b)] == before[Order(ny, a, b)];
        } else {
          assert Order(ny, a, b) == |before| + b;
        }
      }
      cx := cx + 1;
    }
  }

  /** The grid and the mesher each resolve an unset seed with a draw of
      their own. With the default seed 0 and two different draws, the
      grid's land test and the mesher's colour of the same voxel disagree:
      here, with the sampled noise values and the threshold inside [0, 1]
      as Perlin noise and the inspector allow, the mesher paints voxel (0, 0) green (noise 0.5)
      while the grid reads it as water (noise 0.25). */
  lemma SeparateSeedDrawsDisagree()
    ensures
      var noise: NoiseFn := (a: real, b: real) => a / 4.0;
      var base := Terrain(16, 16, 0.1, 0, 1.0, 0.4);
      var gridTerrain := base.(seed := StartSeed(base.seed, 1));
      var worldCfg := WorldConfig(base.(seed := StartSeed(base.seed, 2)), 1);
      var p := Vec3(0.05, 0.05, 0.05);
      && !Grid.PointIsLand(noise, gridTerrain, p)
      && ChunkMesh(noise, worldCfg, ChunkId(0, 0)).colors[0] == Green
  {
    var noise: NoiseFn := (a: real, b: real) => a / 4.0;
    var base := Terrain(16, 16, 0.1, 0, 1.0, 0.4);
    var worldCfg := WorldConfig(base.(seed := StartSeed(base.seed, 2)), 1);
    FloorDivUnique(0.05, 0.1, 0);
    assert Emitted(noise, worldCfg, ChunkId(0, 0), 1, 0) == Emitted(noise, worldCfg, ChunkId(0, 0), 0, 1);
    assert Emitted(noise, worldCfg, ChunkId(0, 0), 0, 1) == EmitCell(noise, worldCfg, ChunkId(0, 0), EmptyMesh, 0, 0);
  }
}
